=== FILE: README.md ===
# Subrogation demand management: the demand-package pipeline in Dafny

A subrogation case is a claim an insurer tries to recover from a third party.
For one case, the system assembles a *demand package* (a versioned bundle of
documents), renders it to a PDF and mails it to the other side. The pipeline
has two halves:

- The ASP.NET API (`DemandPackagesController`, `SubrogationCasesController`)
  creates cases and packages, queues PDF generation, and queues delivery.
  Delivery writes a `CommunicationLog` row first.
- Two queue-triggered Azure Functions do the slow work.
  `GeneratePDFFunction` renders the package, uploads the PDF to blob storage and
  records path, SHA-256 hash, size and page count on the package.
  `SendEmailFunction` downloads that PDF, mails it through SendGrid and records
  the outcome on the log.

This project models the pipeline as a sequential state machine over one
immutable `Stores.Store`. The store holds four tables, a blob map keyed by
(container, path), and an append-only Service Bus outbox. Every controller
action and every worker run is a pure function from a store to a result and a
new store. The project also models the encodings on the way: base16 rendering
of the digest, base64 of mail attachments, GUID rendering and parsing, blob
paths and `Path.GetFileName`, and the tenant/user claim lookup.

Layout, one module per file:

| module | models |
|---|---|
| `Wrappers`, `Primitives`, `Exceptions` | `Option`/`Result`, bytes, 32-bit `int` wrap-around, ASCII case folding, the exceptions raised |
| `Hex`, `Base64`, `Guids` | RFC 4648 base16 (section 8) and base64 (section 4); `Guid.ToString()` / `Guid.TryParse` |
| `Tables` | tables as key-unique row sequences; `Where`, `OrderBy`, `Skip`/`Take`, `Find`, `Add`, `ExecuteUpdate` |
| `Domain`, `Messaging`, `BlobStorage`, `Stores`, `Http` | entities, queue messages and outbox, blob store, the shared store, action results |
| `PackageRepository`, `CommunicationRepository`, `CaseRepository` | the three repositories |
| `PackagesController`, `CasesController` | the two API controllers |
| `PdfWorker`, `EmailWorker`, `EmailService` | the two functions and the SendGrid service |
| `TenantService` | `CurrentTenantService` |
| `Pipeline` | invariants of the whole store that every step preserves, and the generate-then-send sequence |

Foreign effects are parameters:

- the PDF renderer: `(case, package) -> bytes`;
- SHA-256: a function to 32 bytes;
- the e-mail service: `EmailRequest -> EmailResponse`;
- the SendGrid HTTP transport: `message -> outcome`;
- the JSON serialiser of recipient lists;
- the clock and `Guid.NewGuid`: the request context's `now` and `newId`;
- whether Service Bus is configured;
- which foreign call of the PDF worker throws (`PdfWorker.Fault`).

## Model

| member | source | states |
|---|---|---|
| Hex.EncodeLower | src/Functions/GeneratePDFFunction.cs:111-116 | the digest rendering has two characters per byte, high nibble first, each one of 0-9a-f |
| Hex.DecodeEncodeLower | src/Functions/GeneratePDFFunction.cs:111-116 | base16 decoding (RFC 4648 section 8) of the rendering gives back exactly the bytes |
| Hex.EncodeLowerInjective | src/Functions/GeneratePDFFunction.cs:111-116 | two byte strings have the same rendering if and only if they are equal |
| Hex.BitConverterWithoutDashes | src/Functions/GeneratePDFFunction.cs:115 | removing every '-' from `BitConverter.ToString` leaves the upper-case base16 digits with no separators |
| Hex.UpperThenLower | src/Functions/GeneratePDFFunction.cs:115 | lower-casing the upper-case rendering yields the lower-case rendering |
| Hex.DashedUpperToLower | src/Functions/GeneratePDFFunction.cs:115 | the whole `ToString` / `Replace` / `ToLowerInvariant` chain equals lower-case base16 |
| Base64.Encode | src/Services/Email/SendGridEmailService.cs:90 | the encoding of n bytes is 4 * ceil(n / 3) characters long |
| Base64.EncodeAlphabet | src/Services/Email/SendGridEmailService.cs:90 | an encoding uses only the base64 alphabet and the pad character |
| Base64.DecodeEncode | src/Services/Email/SendGridEmailService.cs:86-93 | decoding (RFC 4648 section 4) an attachment's encoded content recovers the original bytes |
| Base64.EncodeInjective | src/Services/Email/SendGridEmailService.cs:90 | distinct contents give distinct encodings |
| Guids.ToString | src/Services/Storage/BlobStorageService.cs:46 | a GUID renders as 36 characters with dashes at offsets 8, 13, 18 and 23 |
| Guids.TryParse | src/API/Services/CurrentTenantService.cs:31 | only strings of length 32, 36 or 38 can parse |
| Guids.ParseToString | src/API/Services/CurrentTenantService.cs:31 | parsing the default rendering of a GUID gives the GUID back |
| Guids.ToStringInjective | src/Services/Storage/BlobStorageService.cs:72 | distinct GUIDs render differently |
| Guids.ToStringHasNoSlash | src/Services/Storage/BlobStorageService.cs:72 | a rendered GUID contains no path separator |
| Messaging.SendMessage | src/Services/Messaging/ServiceBusService.cs:36-64 | without a configured client nothing is queued; otherwise exactly one envelope with this queue name and payload is appended and the earlier ones stay |
| Http.Actor | src/API/Controllers/DemandPackagesController.cs:104 | the requester is the signed-in user's name, or "System" without one |
| BlobStorage.UploadDocument | src/Services/Storage/BlobStorageService.cs:36-59 | returns `{tenantId}/{packageId}/{fileName}`; downloading that path from "documents" yields the content; no other blob changes |
| BlobStorage.UploadPackage | src/Services/Storage/BlobStorageService.cs:64-85 | returns `{tenantId}/{packageId}/package.pdf`; downloading it from "packages" yields the PDF; the content type is application/pdf; no other blob changes |
| BlobStorage.DownloadBlob | src/Services/Storage/BlobStorageService.cs:90-97 | a stored blob yields its content; a missing one fails with not-found for that container and path |
| BlobStorage.DownloadDocument | src/Services/Storage/BlobStorageService.cs:102-105 | reads the "documents" container |
| BlobStorage.DownloadPackage | src/Services/Storage/BlobStorageService.cs:110-113 | reads the "packages" container |
| BlobStorage.DownloadTemplate | src/Services/Storage/BlobStorageService.cs:118-121 | reads the "templates" container |
| BlobStorage.DeleteBlob | src/Services/Storage/BlobStorageService.cs:126-134 | the blob is gone afterwards, nothing else changes, and deleting an absent blob changes nothing |
| BlobStorage.DeleteBlobIdempotent | src/Services/Storage/BlobStorageService.cs:126-134 | deleting twice is deleting once |
| BlobStorage.FileName | src/Functions/SendEmailFunction.cs:66 | the file name is the longest suffix of the path with no separator; it is preceded by a separator unless it is the whole path |
| BlobStorage.FileNameOfBlobPath | src/Functions/SendEmailFunction.cs:63-66 | the file name of an upload path is the file name the upload was given |
| BlobStorage.BlobPathInjective | src/Services/Storage/BlobStorageService.cs:46 | two upload paths are equal exactly when tenant, package and file name are |
| PackageRepository.GetById | src/Services/Data/Repositories/DemandPackageRepository.cs:21-26 | the stored package with that id, or none exactly when no row has it |
| PackageRepository.GetByIdWithDocuments | src/Services/Data/Repositories/DemandPackageRepository.cs:31-50 | none for an unknown id; otherwise the stored row with its document list set to exactly that package's documents, ascending by display order |
| PackageRepository.GetByCaseId | src/Services/Data/Repositories/DemandPackageRepository.cs:55-62 | exactly the case's packages, each as often as stored, in non-increasing version order |
| PackageRepository.GetLatestByCaseId | src/Services/Data/Repositories/DemandPackageRepository.cs:67-74 | none exactly when the case has no package; otherwise one of the case's packages whose version is the maximum |
| PackageRepository.Create | src/Services/Data/Repositories/DemandPackageRepository.cs:79-84 | the package is appended without its navigation list and reads back by id; a taken id fails with a duplicate key |
| PackageRepository.UpdateStatus | src/Services/Data/Repositories/DemandPackageRepository.cs:89-95 | only the status of the matching row changes; an unknown id changes nothing |
| PackageRepository.UpdateGeneratedPdf | src/Services/Data/Repositories/DemandPackageRepository.cs:100-115 | the matching row gets path, hash, size, page count and `Generated` together; no other field and no other row changes |
| PackageRepository.UpdateGeneratedPdfIdempotent | src/Services/Data/Repositories/DemandPackageRepository.cs:100-115 | writing the same artifact twice is writing it once |
| PackageRepository.AddDocument | src/Services/Data/Repositories/DemandPackageRepository.cs:120-124 | the document is appended exactly when its package exists and its id is free |
| PackageRepository.DeleteDocument | src/Services/Data/Repositories/DemandPackageRepository.cs:129-134 | exactly the rows with that id disappear; an absent id changes nothing |
| PackageRepository.UpdateDocumentOrder | src/Services/Data/Repositories/DemandPackageRepository.cs:139-148 | each listed document gets its new display order, unlisted ones stay as they are, whatever order the dictionary is walked in |
| PackageRepository.OldestWithStatus | src/Services/Data/Repositories/DemandPackageRepository.cs:153-167 | at most `limit` packages, all with the status, ascending by creation time; a package of that status is left out only when the limit is reached and it is no older than every one taken |
| PackageRepository.GetByStatus | src/Services/Data/Repositories/DemandPackageRepository.cs:153-167 | at most `limit` summaries, each of a stored package with the status, ascending by creation time, and none older than a package left out |
| CommunicationRepository.GetById | src/Services/Data/Repositories/CommunicationLogRepository.cs:15-18 | the stored log with that id, or none exactly when no row has it |
| CommunicationRepository.Create | src/Services/Data/Repositories/CommunicationLogRepository.cs:20-25 | the log is appended and reads back by id; a taken id fails with a duplicate key |
| CommunicationRepository.GetByPackageId | src/Services/Data/Repositories/CommunicationLogRepository.cs:27-33 | exactly the package's logs, each as often as stored, newest first |
| CommunicationRepository.UpdateStatus | src/Services/Data/Repositories/CommunicationLogRepository.cs:35-59 | unknown id: InvalidOperationException; otherwise the status is set with no guard on the previous one, the tracking id is replaced only when one is given, `Sent` stamps `sentAt`, `Delivered` stamps `deliveredAt`, and nothing else changes |
| CommunicationRepository.UpdateStatusReadBack | tests/SubrogationDemandManagement.Tests/Repositories/CommunicationLogRepositoryTests.cs:154-220 | after a saved status change the row reads back with that change |
| CommunicationRepository.UpdateStatusAsWritten | src/Services/Data/Repositories/CommunicationLogRepository.cs:35-59 | as written: the loaded instance takes the change but the stored table is left as it was |
| CommunicationRepository.UpdateStatusAsWrittenLosesWrite | src/Services/Data/Repositories/CommunicationLogRepository.cs:35-59 | as written, a requested status that differs from the stored one is not stored; the intended version stores it |
| CommunicationRepository.UpdateError | src/Services/Data/Repositories/CommunicationLogRepository.cs:61-70 | the matching row becomes `Failed` with the message and nothing else changes; an unknown id changes nothing |
| CommunicationRepository.UpdateErrorAsWritten | src/Services/Data/Repositories/CommunicationLogRepository.cs:61-70 | as written: the loaded instance is marked failed but the stored table is left as it was |
| CommunicationRepository.UpdateErrorAsWrittenLosesWrite | src/Services/Data/Repositories/CommunicationLogRepository.cs:61-70 | as written, a row not yet failed stays so in the store; the intended version records the failure |
| CaseRepository.GetByTenantAndStatus | src/Services/Data/Repositories/SubrogationCaseRepository.cs:20-26 | exactly the tenant's cases in that status, each as often as stored, newest first |
| CaseRepository.GetById | src/Services/Data/Repositories/SubrogationCaseRepository.cs:47-60 | the stored case with that id, or none exactly when no row has it |
| CaseRepository.TenantCases | src/Services/Data/Repositories/SubrogationCaseRepository.cs:65-77 | exactly the tenant's cases, newest first |
| CaseRepository.GetByTenant | src/Services/Data/Repositories/SubrogationCaseRepository.cs:65-77 | the tenant's cases sorted newest first, cut as LINQ `Skip(skip).Take(take)`: for 0 <= skip <= count and take >= 0 the slice from `skip` of length `take` clipped at the end, a negative skip starting at the front, an empty page for a skip past the end or a take of zero or less; so at most `take`, exactly `take` when it fits, all of the tenant, newest first |
| CaseRepository.PagesConcatenate | tests/SubrogationDemandManagement.Tests/SubrogationCaseRepositoryTests.cs:86-131 | the page of n cases followed by the page of m cases after them is the page of n + m cases |
| CaseRepository.FullPageHoldsTenant | src/Services/Data/Repositories/SubrogationCaseRepository.cs:65-77 | a first page as long as the table holds every case of the tenant and no other |
| CaseRepository.Create | src/Services/Data/Repositories/SubrogationCaseRepository.cs:82-87 | the case is appended and reads back by id; a taken id fails with a duplicate key |
| CaseRepository.Update | src/Services/Data/Repositories/SubrogationCaseRepository.cs:92-99 | the row with that id is replaced whole and reads back; other rows stay; an id with no row is a concurrency failure |
| CaseRepository.UpdateProperties | src/Services/Data/Repositories/SubrogationCaseRepository.cs:104-114 | unknown id: InvalidOperationException; otherwise the row reads back as the action's image of it and other rows stay |
| CaseRepository.UpdatePropertiesAsWritten | src/Services/Data/Repositories/SubrogationCaseRepository.cs:104-114 | as written: the tracked instance takes the action's change, the stored table does not |
| CaseRepository.UpdatePropertiesAsWrittenLosesWrite | src/Services/Data/Repositories/SubrogationCaseRepository.cs:104-114 | as written, an action that changes a non-key field leaves the stored case unchanged; the intended version stores the change |
| CaseRepository.CountMatchesList | src/Services/Data/Repositories/SubrogationCaseRepository.cs:119-124 | the count equals the length of the tenant-and-status list |
| CasesController.GetCases | src/API/Controllers/SubrogationCasesController.cs:26-36 | 200 with the page of the tenant's newest-first cases that starts at `skip` and holds at most `take` of them, clipped at the end |
| CasesController.GetCasesByStatus | src/API/Controllers/SubrogationCasesController.cs:42-51 | 200 with exactly the tenant's cases in that status, newest first |
| CasesController.GetCase | src/API/Controllers/SubrogationCasesController.cs:57-67 | 404 exactly when no case has the id; otherwise 200 with that case |
| CasesController.CreateCase | src/API/Controllers/SubrogationCasesController.cs:73-84 | 201 with the body given the fresh id, the creation time and `Draft` whatever it said, and the case retrievable afterwards |
| CasesController.UpdateCase | src/API/Controllers/SubrogationCasesController.cs:90-101 | 400 and no change when route and body ids differ; otherwise 204 with the case replaced by the body stamped with `ModifiedAt`, or a concurrency failure for an unknown id |
| CasesController.GetCount | src/API/Controllers/SubrogationCasesController.cs:107-113 | the count equals the number of cases the status listing returns |
| PackagesController.GetPackages | src/API/Controllers/DemandPackagesController.cs:33-40 | 200 with exactly the case's packages, highest version first |
| PackagesController.GetPackage | src/API/Controllers/DemandPackagesController.cs:45-59 | 404 exactly for an unknown id; with documents requested, the list is exactly the package's documents by display order |
| PackagesController.NextVersion | src/API/Controllers/DemandPackagesController.cs:74-75 | 1 for a case with no package; otherwise one past the case's highest version and above every version, or the 32-bit minimum when the highest is the 32-bit maximum |
| PackagesController.LatestPlusOne | src/API/Controllers/DemandPackagesController.cs:75 | adding one to the highest version exceeds every version unless it overflows, and then wraps to the 32-bit minimum |
| PackagesController.CreatePackage | src/API/Controllers/DemandPackagesController.cs:64-80 | 201 with the fresh id, the creation time, `Draft` and the next version, the rest of the body unchanged, appended to the table |
| PackagesController.QueuePdfGeneration | src/API/Controllers/DemandPackagesController.cs:85-113 | 404 with no change for an unknown id; otherwise the status becomes `Generating` whatever it was and one "pdf-generation" request with the package's own ids is queued |
| PackagesController.QueuedLog | src/API/Controllers/DemandPackagesController.cs:131-150 | the log is `Queued`, `InitialDemand`, `Email`, from the fixed sender, carries the package and tenant ids and the fresh id, and has no stamps |
| PackagesController.DeliveryRequest | src/API/Controllers/DemandPackagesController.cs:155-166 | the delivery request carries the log id, the package's ids and PDF path, and the request's recipients, Cc, subject and body unchanged |
| PackagesController.SendPackage | src/API/Controllers/DemandPackagesController.cs:118-174 | the result is 404, 400, 500 or 202 and the packages never change; 404 for an unknown id and 400 unless `Generated`, both changing nothing; a 500 duplicate-key error, changing nothing, exactly when the package is `Generated` and the log id is taken; otherwise 202: the `Queued` log is stored, one "email-delivery" request naming it is queued, and the packages stay as they were |
| PackagesController.AddDocument | src/API/Controllers/DemandPackagesController.cs:179-191 | the document gets the fresh id, the route package id and the upload time with no status check, and is stored exactly when the package exists and the id is free |
| PdfWorker.CalculateHash | src/Functions/GeneratePDFFunction.cs:111-116 | the hash is the lower-case base16 of the digest, 64 characters (the `PdfHash` column width), and decodes back to the digest |
| PdfWorker.HashesAgreeIffDigestsAgree | src/Functions/GeneratePDFFunction.cs:111-116 | two hashes agree exactly when the digests do |
| PdfWorker.RenderInput | src/Functions/GeneratePDFFunction.cs:57-76 | the renderer gets the message's package with exactly its documents, each as often as stored and ascending by display order (the order the PDF lists them in), and that package's case |
| PdfWorker.Load | src/Functions/GeneratePDFFunction.cs:57-71 | a missing package or a missing case fails with InvalidOperationException naming it; otherwise the render input |
| PdfWorker.Run | src/Functions/GeneratePDFFunction.cs:36-109 | a null message, a missing package or a package whose case is missing fails with the matching `InvalidOperationException` before any change; success records the uploaded path, hash, size, one page and `Generated`; every failure is rethrown, never writes `Failed` and leaves the packages unchanged |
| PdfWorker.RunRecordsArtifact | src/Functions/GeneratePDFFunction.cs:81-95 | after a clean run the package reads back as `Generated`, pointing at a downloadable PDF, with a 64-character hash and one page |
| PdfWorker.RetryAfterDatabaseFault | src/Functions/GeneratePDFFunction.cs:81-108 | redelivery after a failure between upload and update, with the same rendered bytes, ends where a clean first run would have (the deployed renderer embeds the current date, so a redelivery on another day stores a different hash) |
| PdfWorker.RunKeepsResolvable | src/Functions/GeneratePDFFunction.cs:58-71 | after a clean run the package and its case can still be found |
| PdfWorker.RunAddsPdfKey | src/Functions/GeneratePDFFunction.cs:81-84 | a clean run adds exactly the blob key from the message's tenant and package ids |
| PdfWorker.RedeliveryReusesBlobPath | src/Functions/GeneratePDFFunction.cs:75-84 | a second clean run of the same message writes the same blob key and the package keeps the same path |
| EmailWorker.Attachments | src/Functions/SendEmailFunction.cs:60-84 | no attachments without a PDF path; otherwise one application/pdf attachment named after the path's last segment with the downloaded bytes, or the download's failure |
| EmailWorker.Request | src/Functions/SendEmailFunction.cs:86-97 | fixed sender, recipients, Cc, subject and body copied unchanged, HTML body the body wrapped in a paragraph, no Bcc |
| EmailWorker.Run | src/Functions/SendEmailFunction.cs:35-133 | a null message or unknown log fails before any change; otherwise the log goes to `Sending` first, then `Sent` with the message id on success, or `Failed` with the error (or "Unknown error") and a rethrow; only the log table changes |
| EmailWorker.SendingKeepsLog | src/Functions/SendEmailFunction.cs:58 | moving the log to `Sending` keeps it present for the final update |
| EmailWorker.GeneratedPdfIsAttached | src/Functions/SendEmailFunction.cs:63-80 | a PDF stored by the generation worker is attached as "package.pdf" with its stored content |
| EmailWorker.SuccessMarksSent | src/Functions/SendEmailFunction.cs:101-112 | an accepted mail leaves the log `Sent` at `now` with the provider's message id when one is given |
| EmailWorker.FailureMarksFailed | src/Functions/SendEmailFunction.cs:113-120 | a refused mail leaves the log `Failed` with the service's error or "Unknown error", and the run throws with that error |
| EmailService.BuildMessage | src/Services/Email/SendGridEmailService.cs:49-93 | the To list is the request's in order, Cc and Bcc are present exactly as given, the HTML falls back to the plain text in a paragraph, and each attachment's content decodes back to its bytes |
| EmailService.Outcome | src/Services/Email/SendGridEmailService.cs:96-136 | success exactly for a 2xx answer; failures say "SendGrid returned status {name}: {body}", or carry the exception's message with status 0 |
| EmailService.SendEmail | src/Services/Email/SendGridEmailService.cs:28-137 | never throws; the key guard comes before the recipient guard; success exactly when both pass and the transport answers 2xx |
| EmailService.SendEmailAsWritten | src/Services/Email/SendGridEmailService.cs:98-111 | as written, success requires the `X-Message-Id` header as well |
| EmailService.AsWrittenAgreesWithHeader | src/Services/Email/SendGridEmailService.cs:98-111 | with the header present, or without a success status, the two versions agree |
| EmailService.AsWrittenRejectsAcceptedMail | src/Services/Email/SendGridEmailService.cs:98-111 | a 202 with no header is a success with no id in the intended version and a failure with status 0 as written |
| TenantService.FindFirstIn | src/API/Services/CurrentTenantService.cs:30 | the first claim whose type matches ignoring case, or none exactly when no claim matches |
| TenantService.FindFirst | src/API/Services/CurrentTenantService.cs:30 | a principal is searched identity by identity, which is the first match among all its claims |
| TenantService.FirstOfTwo | src/API/Services/CurrentTenantService.cs:30 | the second claim type is consulted only when no claim of the first exists; found exactly when some claim has either type |
| TenantService.TenantId | src/API/Services/CurrentTenantService.cs:15-39 | none without a user or when unauthenticated; otherwise the parsed `extension_TenantId` claim, else the parsed `TenantId` claim, none when it does not parse |
| TenantService.ExtensionClaimTakesPrecedence | src/API/Services/CurrentTenantService.cs:30-37 | a present extension claim decides the result even when its value is not a GUID |
| TenantService.TenantIdRoundTrip | src/API/Services/CurrentTenantService.cs:31-34 | a signed-in user whose `TenantId` claim holds a rendered GUID belongs to that tenant |
| TenantService.UserId | src/API/Services/CurrentTenantService.cs:41-50 | the name-identifier claim, else `sub`, else none, with no authentication check |
| Pipeline.CreatePackagePreserves | src/API/Controllers/DemandPackagesController.cs:64-80 | creating a package keeps the store invariant and removes no package nor returns one to `Draft` |
| Pipeline.QueuePdfGenerationPreserves | src/API/Controllers/DemandPackagesController.cs:96-108 | queueing generation keeps the invariant, including that every queued request names an existing package, and moves packages forward |
| Pipeline.SendPackagePreserves | src/API/Controllers/DemandPackagesController.cs:118-174 | queueing delivery keeps the invariant, every queued delivery naming an existing log, and leaves the packages as they were |
| Pipeline.AddDocumentPreserves | src/API/Controllers/DemandPackagesController.cs:179-191 | adding a document keeps the invariant |
| Pipeline.CreateCasePreserves | src/API/Controllers/SubrogationCasesController.cs:73-84 | creating a case keeps the invariant |
| Pipeline.UpdateCasePreserves | src/API/Controllers/SubrogationCasesController.cs:90-101 | updating a case keeps the invariant |
| Pipeline.PdfWorkerPreserves | src/Domain/Models/DemandPackage.cs:33-40 | any generation run, failed or not, keeps the invariant (no package is ever `Sent` or `Failed`) and moves packages forward |
| Pipeline.EmailWorkerPreserves | src/Functions/SendEmailFunction.cs:35-133 | any delivery run keeps the invariant (a `Sent` log has its send time) and leaves the packages as they were |
| Pipeline.QueuedIsResolvable | src/API/Controllers/DemandPackagesController.cs:96-108 | the request just queued names the package and a case the worker will find |
| Pipeline.GeneratedIsSendable | src/Functions/GeneratePDFFunction.cs:90-95 | after a clean generation run a send request with a fresh log id is accepted |
| Pipeline.GenerateThenSend | src/API/Controllers/DemandPackagesController.cs:85-174 | queue generation, run the worker on the queued request, then ask to send: the run succeeds and the send is accepted |

## Left out

- Concurrency, at-least-once delivery and the race in version numbering: steps are sequential; redelivery is a worker step run twice.
- `ServiceBusService` beyond its skip-when-unconfigured branch: sender cache, JSON serialisation of messages, send failures, scheduled and custom-property sends.
- JSON deserialisation of queue messages: the `None` input of `PdfWorker.Run` and `EmailWorker.Run` is a body holding the JSON literal `null`, which deserialises to null and is rejected with `InvalidOperationException("Invalid message format")` (src/Functions/GeneratePDFFunction.cs:48-53, src/Functions/SendEmailFunction.cs:46-51). A malformed body makes `JsonSerializer.Deserialize` throw `JsonException`, which both workers rethrow before any change; that input is not modelled.
- `PackageRepository.OldestWithStatus` and `PackageRepository.GetByStatus`: a negative `limit` yields an empty list, as LINQ's `Take` does. The deployed query runs on SQL Server as `TOP(@limit)`, which rejects a negative value, so such a call fails there with a server error; that failure is not modelled.
- `CaseRepository.GetByTenant` and `CasesController.GetCases`: paging follows LINQ semantics (a negative skip skips nothing, a take of zero or less yields an empty page). The deployed query runs on SQL Server, which rejects a negative `OFFSET` and a `FETCH` below one, so such a request fails there with a server error; that failure is not modelled.
- `EmailWorker.Run` (and `Pipeline.EmailWorkerPreserves`): the log is updated through the corrected `CommunicationRepository.UpdateStatus` and `CommunicationRepository.UpdateError`; as written those updates are not stored (see Findings), so the states the contract names are the intended ones, not what the deployed worker persists.
- The QuestPDF renderer in src/Functions/Services/DemandPackageDocument.cs, SHA-256, the Azure Blob SDK and the SendGrid client: parameters, not modelled.
- `Guids.TryParse`: each digit group must be plain hex digits. `Guid.TryParse` also accepts the "X" format, leading and trailing whitespace, and a group that starts with `+` or `0x` (its lenient hex-group parsing); none of these is modelled, so such a string is `None` here, and so is the tenant `TenantService.TenantId` would read from it.
- `Primitives.ToLowerAsciiString`: case folding outside ASCII is not modelled; claim types and hex digits are ASCII.
- `BlobStorage.FileName`: only '/' is a separator; the Windows '\\' separator of `Path.GetFileName` is not modelled.
- `Base64.Encode`: the contract states length and alphabet; the digit-by-digit shape of the output is stated only through the round trip with `Base64.Decode`.
- `EmailService.Outcome`: the name .NET prints for a status code is supplied with the transport's answer, not computed.
- `CreatePackage` does not insert nested documents sent with the body: the model drops the navigation list.
- Upload validation, `UploadFile`, `DeleteDocument` and `GetDocuments` endpoints: their implementation is not part of this model.
- A tenant-mismatch Forbidden guard: no controller implements one.
- Clock, logging, duration and memory metrics: timestamps are inputs; one `now` per request.
- Decimal money fields: kept as `real`, with no arithmetic on them.
- Entity configurations and migrations: only the package-document foreign key and the 64-character `PdfHash` width are used.
- `GetBlobPropertiesAsync` and container creation: no observable effect on the model.
- DI wiring (both `Program.cs` files), the UI, its API client and the data seeder.
- `PackageStatus.Sent` and `Failed`: no modelled code sets them; `Pipeline.NoSentOrFailed` records that.

## Findings

| source | as written | input that shows it | evidently intended | confidence | as-written member | corrected member |
|---|---|---|---|---|---|---|
| src/Services/Data/Repositories/CommunicationLogRepository.cs:35-59 | the row is loaded and mutated, then `SaveChanges` runs; the context turns off automatic change detection (src/Services/Data/SubrogationDbContext.cs:18), so nothing is written | a stored `Queued` log updated to `Sent` | the new status, tracking id and stamps are stored | not executed | CommunicationRepository.UpdateStatusAsWrittenLosesWrite | CommunicationRepository.UpdateStatus |
| src/Services/Data/Repositories/CommunicationLogRepository.cs:61-70 | the same pattern, so the failure is not stored | a stored `Sending` log given an error | the row is stored as `Failed` with the message | not executed | CommunicationRepository.UpdateErrorAsWrittenLosesWrite | CommunicationRepository.UpdateError |
| src/Services/Data/Repositories/SubrogationCaseRepository.cs:104-114 | the tracked case is changed by the action and saved with change detection off, so the change is not stored | any action that changes a non-key field of an existing case | the changed case is stored | not executed | CaseRepository.UpdatePropertiesAsWrittenLosesWrite | CaseRepository.UpdateProperties |
| src/Services/Email/SendGridEmailService.cs:98-111 | `Headers.GetValues("X-Message-Id")` throws when the header is absent; the catch block reports a failure with status 0 | a 202 answer with no `X-Message-Id` header | the accepted mail is a success with no message id | not executed | EmailService.AsWrittenRejectsAcceptedMail | EmailService.SendEmail |

The repository tests in tests/SubrogationDemandManagement.Tests/Repositories/CommunicationLogRepositoryTests.cs
read the row back through the same context, which returns the mutated
tracked instance. That is why they cannot see the lost writes. The workers
and the pipeline use the corrected members.

=== FILE: base64.dfy ===
/** Base64 (section 4 of RFC 4648) as `Convert.ToBase64String` produces it:
    the standard alphabet, '=' padding, no line breaks. */
module Base64 {

  import opened Wrappers
  import opened Primitives

  /** A six-bit value: one base64 digit. */
  type Sextet = n: int | 0 <= n < 64

  /** The base64 alphabet (RFC 4648, table 1): A-Z, a-z, 0-9, '+', '/'. */
  function Digit(v: Sextet): (c: char)
    ensures c != '='
    ensures DigitValue(c) == Some(v)
  {
    if v < 26 then ('A' as int + v) as char
    else if v < 52 then ('a' as int + v - 26) as char
    else if v < 62 then ('0' as int + v - 52) as char
    else if v == 62 then '+'
    else '/'
  }

  /** The value of a base64 digit; `None` for '=' and every other character. */
  function DigitValue(c: char): (r: Option<Sextet>)
  {
    if 'A' <= c <= 'Z' then Some(c as int - 'A' as int)
    else if 'a' <= c <= 'z' then Some(c as int - 'a' as int + 26)
    else if '0' <= c <= '9' then Some(c as int - '0' as int + 52)
    else if c == '+' then Some(62)
    else if c == '/' then Some(63)
    else None
  }

  predicate IsAlphabetOrPad(c: char) {
    DigitValue(c).Some? || c == '='
  }

  /** Three bytes as four digits: the 24-bit group split high bits first. */
  function EncodeGroup(b0: uint8, b1: uint8, b2: uint8): (r: string)
    ensures |r| == 4 && forall k :: 0 <= k < 4 ==> IsAlphabetOrPad(r[k])
  {
    [Digit(b0 / 4), Digit((b0 % 4) * 16 + b1 / 16), Digit((b1 % 16) * 4 + b2 / 64), Digit(b2 % 64)]
  }

  /** A final single byte: two digits, then two pad characters. */
  function EncodeOne(b0: uint8): (r: string)
    ensures |r| == 4 && forall k :: 0 <= k < 4 ==> IsAlphabetOrPad(r[k])
  {
    [Digit(b0 / 4), Digit((b0 % 4) * 16), '=', '=']
  }

  /** A final pair of bytes: three digits, then one pad character. */
  function EncodePair(b0: uint8, b1: uint8): (r: string)
    ensures |r| == 4 && forall k :: 0 <= k < 4 ==> IsAlphabetOrPad(r[k])
  {
    [Digit(b0 / 4), Digit((b0 % 4) * 16 + b1 / 16), Digit((b1 % 16) * 4), '=']
  }

  /** `Convert.ToBase64String(b)`. */
  function Encode(b: seq<uint8>): (r: string)
    ensures |r| == 4 * ((|b| + 2) / 3)
    decreases |b|
  {
    if |b| == 0 then ""
    else if |b| == 1 then EncodeOne(b[0])
    else if |b| == 2 then EncodePair(b[0], b[1])
    else EncodeGroup(b[0], b[1], b[2]) + Encode(b[3..])
  }

  /** Every character of an encoding is a digit or the pad character. */
  lemma {:induction false} EncodeAlphabet(b: seq<uint8>)
    ensures forall k :: 0 <= k < |Encode(b)| ==> IsAlphabetOrPad(Encode(b)[k])
    decreases |b|
  {
    if |b| >= 3 {
      EncodeAlphabet(b[3..]);
      var g := EncodeGroup(b[0], b[1], b[2]);
      var rest := Encode(b[3..]);
      assert Encode(b) == g + rest;
      forall k | 0 <= k < |g + rest|
        ensures IsAlphabetOrPad((g + rest)[k])
      {
        if k >= 4 {
          assert (g + rest)[k] == rest[k - 4];
        }
      }
    }
  }

  /** Four digits (the last one or two may be '=') back to one to three bytes. */
  function DecodeQuantum(c0: char, c1: char, c2: char, c3: char): (r: Option<seq<uint8>>)
    ensures r.Some? ==> 1 <= |r.value| <= 3
  {
    match (DigitValue(c0), DigitValue(c1), DigitValue(c2), DigitValue(c3))
    case (Some(v0), Some(v1), Some(v2), Some(v3)) =>
      var b0: uint8 := (v0 as int) * 4 + v1 / 16;
      var b1: uint8 := (v1 as int % 16) * 16 + v2 / 4;
      var b2: uint8 := (v2 as int % 4) * 64 + v3;
      Some([b0, b1, b2])
    case (Some(v0), Some(v1), Some(v2), None) =>
      if c3 != '=' then None
      else
        var b0: uint8 := (v0 as int) * 4 + v1 / 16;
        var b1: uint8 := (v1 as int % 16) * 16 + v2 / 4;
        Some([b0, b1])
    case (Some(v0), Some(v1), None, None) =>
      if c2 != '=' || c3 != '=' then None
      else
        var b0: uint8 := (v0 as int) * 4 + v1 / 16;
        Some([b0])
    case _ => None
  }

  /** `Convert.FromBase64String` for canonical input: padding only in the last quantum. */
  function Decode(s: string): (r: Option<seq<uint8>>)
    decreases |s|
  {
    if |s| == 0 then Some([])
    else if |s| < 4 then None
    else match DecodeQuantum(s[0], s[1], s[2], s[3])
      case None => None
      case Some(q) =>
        if |q| < 3 && |s| > 4 then None
        else match Decode(s[4..])
          case None => None
          case Some(rest) => Some(q + rest)
  }

  lemma FirstByte(b0: uint8, b1: uint8)
    ensures (b0 / 4) * 4 + ((b0 % 4) * 16 + b1 / 16) / 16 == b0
  {
    assert ((b0 % 4) * 16 + b1 / 16) / 16 == b0 % 4;
  }

  lemma SecondByte(b1: uint8, b2: uint8, hi: int)
    requires 0 <= hi < 4
    ensures ((hi * 16 + b1 / 16) % 16) * 16 + ((b1 % 16) * 4 + b2 / 64) / 4 == b1
  {
    assert (hi * 16 + b1 / 16) % 16 == b1 / 16;
    assert ((b1 % 16) * 4 + b2 / 64) / 4 == b1 % 16;
  }

  lemma ThirdByte(b1: uint8, b2: uint8)
    ensures (((b1 % 16) * 4 + b2 / 64) % 4) * 64 + b2 % 64 == b2
  {
    assert ((b1 % 16) * 4 + b2 / 64) % 4 == b2 / 64;
  }

  lemma GroupRoundTrip(b0: uint8, b1: uint8, b2: uint8)
    ensures
      var e := EncodeGroup(b0, b1, b2);
      DecodeQuantum(e[0], e[1], e[2], e[3]) == Some([b0, b1, b2])
  {
    var v0: Sextet := b0 / 4;
    var v1: Sextet := (b0 % 4) * 16 + b1 / 16;
    var v2: Sextet := (b1 % 16) * 4 + b2 / 64;
    var v3: Sextet := b2 % 64;
    FirstByte(b0, b1);
    SecondByte(b1, b2, b0 % 4);
    ThirdByte(b1, b2);
    var x0: uint8 := v0 * 4 + v1 / 16;
    var x1: uint8 := (v1 % 16) * 16 + v2 / 4;
    var x2: uint8 := (v2 % 4) * 64 + v3;
    assert x0 == b0 && x1 == b1 && x2 == b2;
  }

  /** One byte as two digits and two pad characters decodes back. */
  lemma SingleRoundTrip(b0: uint8)
    ensures
      var e := EncodeOne(b0);
      DecodeQuantum(e[0], e[1], e[2], e[3]) == Some([b0])
  {
    var v0: Sextet := b0 / 4;
    var v1: Sextet := (b0 % 4) * 16;
    assert v1 / 16 == b0 % 4;
    assert v0 * 4 + v1 / 16 == b0;
  }

  /** Two bytes as three digits and a pad character decode back. */
  lemma PairRoundTrip(b0: uint8, b1: uint8)
    ensures
      var e := EncodePair(b0, b1);
      DecodeQuantum(e[0], e[1], e[2], e[3]) == Some([b0, b1])
  {
    var v0: Sextet := b0 / 4;
    var v1: Sextet := (b0 % 4) * 16 + b1 / 16;
    var v2: Sextet := (b1 % 16) * 4;
    FirstByte(b0, b1);
    assert v0 * 4 + v1 / 16 == b0;
    assert v1 % 16 == b1 / 16;
    assert v2 / 4 == b1 % 16;
  }

  /** A final quantum of one or two bytes decodes on its own. */
  lemma DecodeLastGroup(g: string, q: seq<uint8>)
    requires |g| == 4
    requires DecodeQuantum(g[0], g[1], g[2], g[3]) == Some(q)
    ensures Decode(g) == Some(q)
  {
    assert g[4..] == [];
    assert q + [] == q;
  }

  /** A full leading quantum decodes on its own, ahead of the rest. */
  lemma DecodeLeadingGroup(g: string, rest: string, q: seq<uint8>)
    requires |g| == 4 && |q| == 3
    requires DecodeQuantum(g[0], g[1], g[2], g[3]) == Some(q)
    ensures Decode(g + rest) == if Decode(rest).Some? then Some(q + Decode(rest).value) else None
  {
    var s := g + rest;
    assert s[0] == g[0] && s[1] == g[1] && s[2] == g[2] && s[3] == g[3];
    assert s[4..] == rest;
  }

  lemma SplitThree<T>(b: seq<T>)
    requires |b| >= 3
    ensures [b[0], b[1], b[2]] + b[3..] == b
  {
    assert b == b[..3] + b[3..];
  }

  /** One byte decodes back from its single padded quantum. */
  lemma DecodeEncodeOne(b: seq<uint8>)
    requires |b| == 1
    ensures Decode(Encode(b)) == Some(b)
  {
    assert Encode(b) == EncodeOne(b[0]);
    SingleRoundTrip(b[0]);
    DecodeLastGroup(EncodeOne(b[0]), [b[0]]);
    assert [b[0]] == b;
  }

  /** Two bytes decode back from their single padded quantum. */
  lemma DecodeEncodeTwo(b: seq<uint8>)
    requires |b| == 2
    ensures Decode(Encode(b)) == Some(b)
  {
    assert Encode(b) == EncodePair(b[0], b[1]);
    PairRoundTrip(b[0], b[1]);
    DecodeLastGroup(EncodePair(b[0], b[1]), [b[0], b[1]]);
    assert [b[0], b[1]] == b;
  }

  /** Long input: a full leading group, then whatever the rest decodes to. */
  lemma DecodeEncodeStep(b: seq<uint8>)
    requires |b| >= 3
    requires Decode(Encode(b[3..])) == Some(b[3..])
    ensures Decode(Encode(b)) == Some(b)
  {
    var g := EncodeGroup(b[0], b[1], b[2]);
    assert Encode(b) == g + Encode(b[3..]);
    GroupRoundTrip(b[0], b[1], b[2]);
    DecodeLeadingGroup(g, Encode(b[3..]), [b[0], b[1], b[2]]);
    SplitThree(b);
  }

  /** Decoding an encoding gives back the original bytes. */
  lemma {:induction false} DecodeEncode(b: seq<uint8>)
    ensures Decode(Encode(b)) == Some(b)
    decreases |b|
  {
    if |b| == 1 {
      DecodeEncodeOne(b);
    } else if |b| == 2 {
      DecodeEncodeTwo(b);
    } else if |b| >= 3 {
      DecodeEncode(b[3..]);
      DecodeEncodeStep(b);
    }
  }

  /** Distinct byte strings have distinct encodings. */
  lemma EncodeInjective(a: seq<uint8>, b: seq<uint8>)
    ensures Encode(a) == Encode(b) <==> a == b
  {
    if Encode(a) == Encode(b) {
      DecodeEncode(a);
      DecodeEncode(b);
    }
  }
}

=== FILE: blob_storage.dfy ===
/** The blob store as a map from (container, path) to content, with the path
    scheme of the upload methods, the container routing of the download
    methods, delete-if-exists, and `Path.GetFileName`. */
module BlobStorage {

  import opened Wrappers
  import opened Primitives
  import opened Guids
  import opened Exceptions

  const DocumentsContainer: string := "documents"
  const PackagesContainer: string := "packages"
  const TemplatesContainer: string := "templates"
  const PackageFileName: string := "package.pdf"
  const PdfContentType: string := "application/pdf"

  datatype BlobKey = BlobKey(container: string, path: string)

  datatype Blob = Blob(content: seq<uint8>, contentType: string)

  type Blobs = map<BlobKey, Blob>

  /** The path an upload returns and writes: `{tenantId}/{packageId}/{fileName}`. */
  function BlobPath(tenantId: Guid, packageId: Guid, fileName: string): string {
    ToString(tenantId) + "/" + ToString(packageId) + "/" + fileName
  }

  /** The result of an upload: the path it returned and the store after it. */
  datatype Upload = Upload(path: string, blobs: Blobs)

  /** Only `key` may differ between the two stores. */
  ghost predicate OnlyKeyChanged(before: Blobs, after: Blobs, key: BlobKey) {
    forall k :: k != key ==> (k in after <==> k in before) && (k in before ==> after[k] == before[k])
  }

  /** `UploadDocumentAsync`: writes (overwriting) the content under
      `{tenantId}/{packageId}/{fileName}` in "documents". */
  function UploadDocument(blobs: Blobs, tenantId: Guid, packageId: Guid, fileName: string,
                          content: seq<uint8>, contentType: string): (r: Upload)
    ensures r.path == BlobPath(tenantId, packageId, fileName)
    ensures DownloadDocument(r.blobs, r.path) == Success(content)
    ensures r.blobs[BlobKey(DocumentsContainer, r.path)].contentType == contentType
    ensures OnlyKeyChanged(blobs, r.blobs, BlobKey(DocumentsContainer, r.path))
  {
    var path := BlobPath(tenantId, packageId, fileName);
    Upload(path, blobs[BlobKey(DocumentsContainer, path) := Blob(content, contentType)])
  }

  /** `UploadPackageAsync`: writes (overwriting) the PDF under
      `{tenantId}/{packageId}/package.pdf` in "packages". */
  function UploadPackage(blobs: Blobs, tenantId: Guid, packageId: Guid, content: seq<uint8>): (r: Upload)
    ensures r.path == BlobPath(tenantId, packageId, PackageFileName)
    ensures DownloadPackage(r.blobs, r.path) == Success(content)
    ensures r.blobs[BlobKey(PackagesContainer, r.path)].contentType == PdfContentType
    ensures OnlyKeyChanged(blobs, r.blobs, BlobKey(PackagesContainer, r.path))
  {
    var path := BlobPath(tenantId, packageId, PackageFileName);
    Upload(path, blobs[BlobKey(PackagesContainer, path) := Blob(content, PdfContentType)])
  }

  /** `DownloadBlobAsync`: the stored content, or a 404 failure. */
  function DownloadBlob(blobs: Blobs, path: string, containerName: string): (r: Result<seq<uint8>, Exception>)
    ensures BlobKey(containerName, path) in blobs ==> r == Success(blobs[BlobKey(containerName, path)].content)
    ensures BlobKey(containerName, path) !in blobs ==> r == Failure(BlobNotFound(containerName, path))
  {
    var key := BlobKey(containerName, path);
    if key in blobs then Success(blobs[key].content) else Failure(BlobNotFound(containerName, path))
  }

  /** `DownloadDocumentAsync`: reads the "documents" container. */
  function DownloadDocument(blobs: Blobs, path: string): (r: Result<seq<uint8>, Exception>)
    ensures BlobKey("documents", path) in blobs ==> r == Success(blobs[BlobKey("documents", path)].content)
    ensures BlobKey("documents", path) !in blobs ==> r == Failure(BlobNotFound("documents", path))
  {
    DownloadBlob(blobs, path, DocumentsContainer)
  }

  /** `DownloadPackageAsync`: reads the "packages" container. */
  function DownloadPackage(blobs: Blobs, path: string): (r: Result<seq<uint8>, Exception>)
    ensures BlobKey("packages", path) in blobs ==> r == Success(blobs[BlobKey("packages", path)].content)
    ensures BlobKey("packages", path) !in blobs ==> r == Failure(BlobNotFound("packages", path))
  {
    DownloadBlob(blobs, path, PackagesContainer)
  }

  /** `DownloadTemplateAsync`: reads the "templates" container. */
  function DownloadTemplate(blobs: Blobs, path: string): (r: Result<seq<uint8>, Exception>)
    ensures BlobKey("templates", path) in blobs ==> r == Success(blobs[BlobKey("templates", path)].content)
    ensures BlobKey("templates", path) !in blobs ==> r == Failure(BlobNotFound("templates", path))
  {
    DownloadBlob(blobs, path, TemplatesContainer)
  }

  /** `DeleteBlobAsync`, which calls `DeleteIfExistsAsync`: never fails. */
  function DeleteBlob(blobs: Blobs, path: string, containerName: string): (r: Blobs)
    ensures BlobKey(containerName, path) !in r
    ensures OnlyKeyChanged(blobs, r, BlobKey(containerName, path))
    ensures BlobKey(containerName, path) !in blobs ==> r == blobs
  {
    blobs - {BlobKey(containerName, path)}
  }

  /** Deleting twice is deleting once. */
  lemma DeleteBlobIdempotent(blobs: Blobs, path: string, containerName: string)
    ensures DeleteBlob(DeleteBlob(blobs, path, containerName), path, containerName) == DeleteBlob(blobs, path, containerName)
  {
  }

  /** `Path.GetFileName` with '/' as the directory separator: the longest
      suffix that contains no separator. */
  function FileName(path: string): (r: string)
    ensures |r| <= |path| && r == path[|path| - |r|..]
    ensures '/' !in r
    ensures |r| < |path| ==> path[|path| - |r| - 1] == '/'
  {
    if |path| == 0 then ""
    else if path[|path| - 1] == '/' then ""
    else
      var init := FileName(path[..|path| - 1]);
      init + [path[|path| - 1]]
  }

  /** The file name of `prefix/name` is `name` when `name` has no separator. */
  lemma FileNameAfterSeparator(prefix: string, name: string)
    requires '/' !in name
    ensures FileName(prefix + "/" + name) == name
  {
    var path := prefix + "/" + name;
    var r := FileName(path);
    assert path[|path| - |name| - 1] == '/';
    assert path[|path| - |name|..] == name;
  }

  /** The file name of any upload path is the file name it was given. */
  lemma FileNameOfBlobPath(tenantId: Guid, packageId: Guid, fileName: string)
    requires '/' !in fileName
    ensures FileName(BlobPath(tenantId, packageId, fileName)) == fileName
  {
    FileNameAfterSeparator(ToString(tenantId) + "/" + ToString(packageId), fileName);
  }

  /** The path determines the tenant, the package and the file name. */
  lemma BlobPathInjective(t1: Guid, p1: Guid, f1: string, t2: Guid, p2: Guid, f2: string)
    ensures BlobPath(t1, p1, f1) == BlobPath(t2, p2, f2) <==> t1 == t2 && p1 == p2 && f1 == f2
  {
    var a, b := BlobPath(t1, p1, f1), BlobPath(t2, p2, f2);
    if a == b {
      assert a[..36] == ToString(t1) && b[..36] == ToString(t2);
      assert a[37..73] == ToString(p1) && b[37..73] == ToString(p2);
      assert a[74..] == f1 && b[74..] == f2;
      ToStringInjective(t1, t2);
      ToStringInjective(p1, p2);
    }
  }
}

=== FILE: case_repository.dfy ===
/** `SubrogationCaseRepository`: tenant-scoped queries over the
    SubrogationCases table, whole-entity and partial updates, and counts. */
module CaseRepository {

  import opened Wrappers
  import opened Primitives
  import opened Guids
  import opened Tables
  import opened Domain
  import opened Exceptions

  type Cases = seq<SubrogationCase>

  function CreatedAtKey(c: SubrogationCase): int { c.createdAt }

  function OfTenant(tenantId: Guid): SubrogationCase -> bool {
    (c: SubrogationCase) => c.tenantId == tenantId
  }

  function OfTenantWithStatus(tenantId: Guid, status: CaseStatus): SubrogationCase -> bool {
    (c: SubrogationCase) => c.tenantId == tenantId && c.status == status
  }

  /** The compiled tenant-and-status query: those cases, newest first. */
  function GetByTenantAndStatus(cases: Cases, tenantId: Guid, status: CaseStatus): (r: Cases)
    ensures forall c :: c in r <==> c in cases && c.tenantId == tenantId && c.status == status
    ensures multiset(r) == multiset(Filter(cases, OfTenantWithStatus(tenantId, status)))
    ensures SortedDescendingBy(r, CreatedAtKey)
  {
    var r := SortByDescending(Filter(cases, OfTenantWithStatus(tenantId, status)), CreatedAtKey);
    SameMultiset(r, Filter(cases, OfTenantWithStatus(tenantId, status)));
    r
  }

  /** `GetByIdAsync` (and the tracking `GetByIdForUpdateAsync`, which reads
      the same row): the case, or `None`. */
  function GetById(cases: Cases, caseId: Guid): (r: Option<SubrogationCase>)
    ensures r.None? <==> !HasKey(cases, CaseKey, caseId)
    ensures r.Some? ==> r.value in cases && r.value.caseId == caseId
  {
    Find(cases, CaseKey, caseId)
  }

  /** All of a tenant's cases, newest first: the sequence the pages cut. */
  function TenantCases(cases: Cases, tenantId: Guid): (r: Cases)
    ensures forall c :: c in r <==> c in cases && c.tenantId == tenantId
    ensures multiset(r) == multiset(Filter(cases, OfTenant(tenantId)))
    ensures SortedDescendingBy(r, CreatedAtKey)
  {
    var r := SortByDescending(Filter(cases, OfTenant(tenantId)), CreatedAtKey);
    SameMultiset(r, Filter(cases, OfTenant(tenantId)));
    r
  }

  /** `GetByTenantAsync`: one page of the tenant's cases, newest first. */
  function GetByTenant(cases: Cases, tenantId: Guid, skip: int, take: int): (r: Cases)
    ensures |r| <= if take < 0 then 0 else take
    ensures forall c :: c in r ==> c in cases && c.tenantId == tenantId
    ensures SortedDescendingBy(r, CreatedAtKey)
    ensures 0 <= skip && 0 <= take && skip + take <= |TenantCases(cases, tenantId)| ==> |r| == take
    ensures var all := TenantCases(cases, tenantId);
      0 <= skip <= |all| && 0 <= take ==> r == all[skip .. if skip + take <= |all| then skip + take else |all|]
    ensures var all := TenantCases(cases, tenantId);
      (skip < 0 ==> r == all[.. if take <= 0 then 0 else if take <= |all| then take else |all|]) &&
      (|all| <= skip || take <= 0 ==> r == [])
  {
    var all := TenantCases(cases, tenantId);
    PageOfSortedDescending(all, CreatedAtKey, skip, take);
    PageCases(all, skip, take);
    Take(Skip(all, skip), take)
  }

  /** Consecutive pages concatenate to the longer page that spans them. */
  lemma PagesConcatenate(cases: Cases, tenantId: Guid, n: int, m: int)
    requires 0 <= n && 0 <= m
    ensures GetByTenant(cases, tenantId, 0, n) + GetByTenant(cases, tenantId, n, m) == GetByTenant(cases, tenantId, 0, n + m)
  {
    Tables.PagesConcatenate(TenantCases(cases, tenantId), n, m);
  }

  /** A page starting at zero that is as long as the table holds every case of the tenant. */
  lemma FullPageHoldsTenant(cases: Cases, tenantId: Guid)
    ensures forall c :: c in GetByTenant(cases, tenantId, 0, |cases|) <==> c in cases && c.tenantId == tenantId
  {
    var all := TenantCases(cases, tenantId);
    assert |all| <= |cases| by {
      SameMultiset(all, Filter(cases, OfTenant(tenantId)));
    }
  }

  /** `CreateAsync`: the row is stored as given, or the insert fails on a taken key. */
  function Create(cases: Cases, subrogationCase: SubrogationCase): (r: Result<Cases, Exception>)
    ensures r.Failure? <==> HasKey(cases, CaseKey, subrogationCase.caseId)
    ensures r.Failure? ==> r.error == DuplicateKey
    ensures r.Success? ==> r.value == cases + [subrogationCase] && GetById(r.value, subrogationCase.caseId) == Some(subrogationCase)
    ensures r.Success? && UniqueKeys(cases, CaseKey) ==> UniqueKeys(r.value, CaseKey)
  {
    match Insert(cases, CaseKey, subrogationCase)
    case None => Failure(DuplicateKey)
    case Some(t) => Success(t)
  }

  function Replace(subrogationCase: SubrogationCase): SubrogationCase -> SubrogationCase {
    (c: SubrogationCase) => subrogationCase
  }

  /** `UpdateAsync` (attach, mark modified, save): every column of the row
      with that key is overwritten; when no row has the key the update
      affects nothing and EF Core raises a concurrency exception. */
  function Update(cases: Cases, subrogationCase: SubrogationCase): (r: Result<Cases, Exception>)
    ensures r.Failure? <==> !HasKey(cases, CaseKey, subrogationCase.caseId)
    ensures r.Failure? ==> r.error == ConcurrencyConflict
    ensures r.Success? ==> |r.value| == |cases| && GetById(r.value, subrogationCase.caseId) == Some(subrogationCase)
    ensures r.Success? ==> forall i :: 0 <= i < |cases| && cases[i].caseId != subrogationCase.caseId ==> r.value[i] == cases[i]
    ensures r.Success? && UniqueKeys(cases, CaseKey) ==> UniqueKeys(r.value, CaseKey)
  {
    if !HasKey(cases, CaseKey, subrogationCase.caseId) then Failure(ConcurrencyConflict)
    else
      var t := Tables.Update(cases, CaseKey, subrogationCase.caseId, Replace(subrogationCase));
      FindAfterUpdate(cases, CaseKey, subrogationCase.caseId, Replace(subrogationCase));
      Success(t)
  }

  function NotFoundMessage(caseId: Guid): string {
    "Case " + ToString(caseId) + " not found"
  }

  /** EF Core's refusal to save a changed primary key. */
  const KeyModifiedMessage: string := "The property 'SubrogationCase.CaseId' is part of a key and so cannot be modified or marked as modified."

  /** `UpdatePropertiesAsync` with the change saved: the tracked row is
      passed through `updateAction` and stored; an unknown id raises
      `InvalidOperationException`, and so does an action that changes the key. */
  function UpdateProperties(cases: Cases, caseId: Guid, updateAction: SubrogationCase -> SubrogationCase): (r: Result<Cases, Exception>)
    ensures !HasKey(cases, CaseKey, caseId) ==> r == Failure(InvalidOperation(NotFoundMessage(caseId)))
    ensures HasKey(cases, CaseKey, caseId) && updateAction(GetById(cases, caseId).value).caseId != caseId ==>
      r == Failure(InvalidOperation(KeyModifiedMessage))
    ensures r.Success? ==> GetById(r.value, caseId) == Some(updateAction(GetById(cases, caseId).value))
    ensures r.Success? ==> |r.value| == |cases| && forall i :: 0 <= i < |cases| && cases[i].caseId != caseId ==> r.value[i] == cases[i]
    ensures r.Success? && UniqueKeys(cases, CaseKey) ==> UniqueKeys(r.value, CaseKey)
  {
    match GetById(cases, caseId)
    case None => Failure(InvalidOperation(NotFoundMessage(caseId)))
    case Some(c) =>
      var updated := updateAction(c);
      if updated.caseId != caseId then Failure(InvalidOperation(KeyModifiedMessage))
      else
        var t := Tables.Update(cases, CaseKey, caseId, Replace(updated));
        FindAfterUpdate(cases, CaseKey, caseId, Replace(updated));
        Success(t)
  }

  /** `UpdatePropertiesAsync` as written: the action changes the tracked
      instance, but `SaveChanges` without change detection writes nothing. */
  function UpdatePropertiesAsWritten(cases: Cases, caseId: Guid, updateAction: SubrogationCase -> SubrogationCase): (r: Result<Tracked<SubrogationCase>, Exception>)
    ensures r.Failure? <==> !HasKey(cases, CaseKey, caseId)
    ensures r.Failure? ==> r.error == InvalidOperation(NotFoundMessage(caseId))
    ensures r.Success? ==> r.value.instance == updateAction(GetById(cases, caseId).value)
    ensures r.Success? ==> r.value.stored == cases
  {
    match GetById(cases, caseId)
    case None => Failure(InvalidOperation(NotFoundMessage(caseId)))
    case Some(c) => Success(Tracked(updateAction(c), cases))
  }

  /** The lost write: an action that changes anything but the key leaves the
      stored case as it was, while the saved version stores the change. */
  lemma UpdatePropertiesAsWrittenLosesWrite(cases: Cases, caseId: Guid, updateAction: SubrogationCase -> SubrogationCase)
    requires HasKey(cases, CaseKey, caseId)
    requires updateAction(GetById(cases, caseId).value).caseId == caseId
    requires updateAction(GetById(cases, caseId).value) != GetById(cases, caseId).value
    ensures
      var w := UpdatePropertiesAsWritten(cases, caseId, updateAction);
      w.Success? && GetById(w.value.stored, caseId) != Some(w.value.instance)
    ensures
      var r := UpdateProperties(cases, caseId, updateAction);
      r.Success? && GetById(r.value, caseId) == Some(updateAction(GetById(cases, caseId).value))
  {
  }

  /** `GetCountByTenantAndStatusAsync`: a count evaluated in the database. */
  function GetCountByTenantAndStatus(cases: Cases, tenantId: Guid, status: CaseStatus): (r: nat)
    ensures r <= |cases|
  {
    |Filter(cases, OfTenantWithStatus(tenantId, status))|
  }

  /** The count agrees with the length of the list the status query returns. */
  lemma CountMatchesList(cases: Cases, tenantId: Guid, status: CaseStatus)
    ensures GetCountByTenantAndStatus(cases, tenantId, status) == |GetByTenantAndStatus(cases, tenantId, status)|
  {
    var l := GetByTenantAndStatus(cases, tenantId, status);
    assert |multiset(l)| == |multiset(Filter(cases, OfTenantWithStatus(tenantId, status)))|;
  }
}

=== FILE: cases_controller.dfy ===
/** `SubrogationCasesController`: paging, status queries, creation and whole
    updates of subrogation cases. */
module CasesController {

  import opened Wrappers
  import opened Primitives
  import opened Guids
  import opened Tables
  import opened Domain
  import opened Exceptions
  import opened Stores
  import opened Http
  import CaseRepository

  const IdMismatchMessage: string := "Case ID mismatch"

  /** `GetCases`: one page of the tenant's cases. */
  function GetCases(s: Store, tenantId: Guid, skip: int, take: int): (r: ActionResult<seq<SubrogationCase>>)
    ensures r.Ok?
    ensures forall c :: c in r.value ==> c in s.cases && c.tenantId == tenantId
    ensures |r.value| <= if take < 0 then 0 else take
    ensures SortedDescendingBy(r.value, CaseRepository.CreatedAtKey)
    ensures var all := CaseRepository.TenantCases(s.cases, tenantId);
      0 <= skip <= |all| && 0 <= take ==> r.value == all[skip .. if skip + take <= |all| then skip + take else |all|]
  {
    Ok(CaseRepository.GetByTenant(s.cases, tenantId, skip, take))
  }

  /** `GetCasesByStatus`: every case of the tenant in that status, newest first. */
  function GetCasesByStatus(s: Store, tenantId: Guid, status: CaseStatus): (r: ActionResult<seq<SubrogationCase>>)
    ensures r.Ok?
    ensures forall c :: c in r.value <==> c in s.cases && c.tenantId == tenantId && c.status == status
    ensures SortedDescendingBy(r.value, CaseRepository.CreatedAtKey)
  {
    Ok(CaseRepository.GetByTenantAndStatus(s.cases, tenantId, status))
  }

  /** `GetCase`: the case, or 404. */
  function GetCase(s: Store, caseId: Guid): (r: ActionResult<SubrogationCase>)
    ensures r.Ok? || r.NotFound?
    ensures r.NotFound? <==> !HasKey(s.cases, CaseKey, caseId)
    ensures r.Ok? ==> r.value in s.cases && r.value.caseId == caseId
  {
    match CaseRepository.GetById(s.cases, caseId)
    case None => NotFound
    case Some(c) => Ok(c)
  }

  /** `CreateCase`: the server assigns id, creation time and `Draft`. */
  function CreateCase(s: Store, ctx: RequestContext, subrogationCase: SubrogationCase): (r: Handled<SubrogationCase>)
    ensures r.result.Created? || r.result == ServerError(DuplicateKey)
    ensures r.result.ServerError? <==> HasKey(s.cases, CaseKey, ctx.newId)
    ensures r.result.ServerError? ==> r.store == s
    ensures r.result.Created? ==>
      var c := r.result.value;
      && c == subrogationCase.(caseId := ctx.newId, createdAt := ctx.now, status := CaseStatus.Draft)
      && r.store == s.(cases := s.cases + [c])
      && GetCase(r.store, ctx.newId) == Ok(c)
  {
    var c := subrogationCase.(caseId := ctx.newId, createdAt := ctx.now, status := CaseStatus.Draft);
    match CaseRepository.Create(s.cases, c)
    case Failure(e) => Handled(ServerError(e), s)
    case Success(t) => Handled(Created(c), s.(cases := t))
  }

  /** `UpdateCase`: 400 when the route id and the body's id differ;
      otherwise the whole row is replaced by the body stamped with the
      modification time, and an id with no row surfaces as a concurrency
      exception. */
  function UpdateCase(s: Store, ctx: RequestContext, caseId: Guid, subrogationCase: SubrogationCase): (r: Handled<()>)
    ensures caseId != subrogationCase.caseId ==> r == Handled(BadRequest(IdMismatchMessage), s)
    ensures caseId == subrogationCase.caseId && !HasKey(s.cases, CaseKey, caseId) ==> r == Handled(ServerError(ConcurrencyConflict), s)
    ensures r.result.NoContent? <==> caseId == subrogationCase.caseId && HasKey(s.cases, CaseKey, caseId)
    ensures r.result.NoContent? ==>
      && GetCase(r.store, caseId) == Ok(subrogationCase.(modifiedAt := Some(ctx.now)))
      && r.store == s.(cases := r.store.cases)
      && |r.store.cases| == |s.cases|
      && forall i :: 0 <= i < |s.cases| && s.cases[i].caseId != caseId ==> r.store.cases[i] == s.cases[i]
  {
    if caseId != subrogationCase.caseId then Handled(BadRequest(IdMismatchMessage), s)
    else
      match CaseRepository.Update(s.cases, subrogationCase.(modifiedAt := Some(ctx.now)))
      case Failure(e) => Handled(ServerError(e), s)
      case Success(t) => Handled(NoContent, s.(cases := t))
  }

  /** `GetCount`: how many of the tenant's cases have that status. */
  function GetCount(s: Store, tenantId: Guid, status: CaseStatus): (r: ActionResult<nat>)
    ensures r.Ok?
    ensures r.value == |GetCasesByStatus(s, tenantId, status).value|
  {
    CaseRepository.CountMatchesList(s.cases, tenantId, status);
    Ok(CaseRepository.GetCountByTenantAndStatus(s.cases, tenantId, status))
  }
}

=== FILE: communication_repository.dfy ===
/** `CommunicationLogRepository`: the audit trail of outbound communications.
    The status and error updates load the row through the context and save;
    because the context never runs change detection, those two writes are
    modelled twice: as written (the row stays as stored) and as intended. */
module CommunicationRepository {

  import opened Wrappers
  import opened Primitives
  import opened Guids
  import opened Tables
  import opened Domain
  import opened Exceptions

  type Logs = seq<CommunicationLog>

  function CreatedAtKey(l: CommunicationLog): int { l.createdAt }

  function OfPackage(packageId: Guid): CommunicationLog -> bool {
    (l: CommunicationLog) => l.demandPackageId == packageId
  }

  /** `GetByIdAsync`: the stored row, or `None` for an unknown id. */
  function GetById(logs: Logs, communicationId: Guid): (r: Option<CommunicationLog>)
    ensures r.None? <==> !HasKey(logs, LogKey, communicationId)
    ensures r.Some? ==> r.value in logs && r.value.communicationId == communicationId
  {
    Find(logs, LogKey, communicationId)
  }

  /** `CreateAsync`: the row is stored as given, or the insert fails on a taken key. */
  function Create(logs: Logs, log: CommunicationLog): (r: Result<Logs, Exception>)
    ensures r.Failure? <==> HasKey(logs, LogKey, log.communicationId)
    ensures r.Failure? ==> r.error == DuplicateKey
    ensures r.Success? ==> r.value == logs + [log] && GetById(r.value, log.communicationId) == Some(log)
    ensures r.Success? && UniqueKeys(logs, LogKey) ==> UniqueKeys(r.value, LogKey)
  {
    match Insert(logs, LogKey, log)
    case None => Failure(DuplicateKey)
    case Some(t) => Success(t)
  }

  /** `GetByPackageIdAsync`: the package's communications, newest first. */
  function GetByPackageId(logs: Logs, packageId: Guid): (r: Logs)
    ensures forall l :: l in r <==> l in logs && l.demandPackageId == packageId
    ensures multiset(r) == multiset(Filter(logs, OfPackage(packageId)))
    ensures SortedDescendingBy(r, CreatedAtKey)
  {
    var r := SortByDescending(Filter(logs, OfPackage(packageId)), CreatedAtKey);
    SameMultiset(r, Filter(logs, OfPackage(packageId)));
    r
  }

  function NotFoundMessage(communicationId: Guid): string {
    "Communication log with ID " + ToString(communicationId) + " not found"
  }

  /** The row after a status change at time `now`. */
  function ApplyStatus(status: CommunicationStatus, externalId: Option<string>, now: Time): CommunicationLog -> CommunicationLog {
    (l: CommunicationLog) => l.(
      status := status,
      deliveryTrackingId := if externalId.Some? then externalId else l.deliveryTrackingId,
      sentAt := if status == CommunicationStatus.Sent then Some(now) else l.sentAt,
      deliveredAt := if status == CommunicationStatus.Delivered then Some(now) else l.deliveredAt)
  }

  /** The effect a status change must have on one row: the status is set, the
      tracking id is replaced only when one is given, `Sent` stamps the send
      time, `Delivered` stamps the delivery time, and nothing else moves. */
  predicate StatusApplied(before: CommunicationLog, after: CommunicationLog, status: CommunicationStatus,
                          externalId: Option<string>, now: Time) {
    && after.status == status
    && (externalId.Some? ==> after.deliveryTrackingId == externalId)
    && (externalId.None? ==> after.deliveryTrackingId == before.deliveryTrackingId)
    && after.sentAt == (if status == CommunicationStatus.Sent then Some(now) else before.sentAt)
    && after.deliveredAt == (if status == CommunicationStatus.Delivered then Some(now) else before.deliveredAt)
    && after.(status := before.status, deliveryTrackingId := before.deliveryTrackingId,
              sentAt := before.sentAt, deliveredAt := before.deliveredAt) == before
  }

  /** `UpdateStatusAsync` with the change saved: an unknown id raises
      `InvalidOperationException`; otherwise the row takes the new status. */
  function UpdateStatus(logs: Logs, communicationId: Guid, status: CommunicationStatus,
                        externalId: Option<string>, now: Time): (r: Result<Logs, Exception>)
    ensures r.Failure? <==> !HasKey(logs, LogKey, communicationId)
    ensures r.Failure? ==> r.error == InvalidOperation(NotFoundMessage(communicationId))
    ensures r.Success? ==> |r.value| == |logs|
    ensures r.Success? ==> forall i :: 0 <= i < |logs| && logs[i].communicationId == communicationId ==>
      StatusApplied(logs[i], r.value[i], status, externalId, now)
    ensures r.Success? ==> forall i :: 0 <= i < |logs| && logs[i].communicationId != communicationId ==>
      r.value[i] == logs[i]
  {
    if !HasKey(logs, LogKey, communicationId) then Failure(InvalidOperation(NotFoundMessage(communicationId)))
    else Success(Update(logs, LogKey, communicationId, ApplyStatus(status, externalId, now)))
  }

  /** Reading the row back after a saved status change shows the change. */
  lemma UpdateStatusReadBack(logs: Logs, communicationId: Guid, status: CommunicationStatus,
                             externalId: Option<string>, now: Time)
    requires HasKey(logs, LogKey, communicationId)
    ensures
      var r := UpdateStatus(logs, communicationId, status, externalId, now);
      && r.Success?
      && GetById(r.value, communicationId).Some?
      && StatusApplied(GetById(logs, communicationId).value, GetById(r.value, communicationId).value, status, externalId, now)
  {
    FindAfterUpdate(logs, LogKey, communicationId, ApplyStatus(status, externalId, now));
  }

  /** `UpdateStatusAsync` as written: the loaded instance is changed, but
      `SaveChanges` without change detection writes nothing. */
  function UpdateStatusAsWritten(logs: Logs, communicationId: Guid, status: CommunicationStatus,
                                 externalId: Option<string>, now: Time): (r: Result<Tracked<CommunicationLog>, Exception>)
    ensures r.Failure? <==> !HasKey(logs, LogKey, communicationId)
    ensures r.Failure? ==> r.error == InvalidOperation(NotFoundMessage(communicationId))
    ensures r.Success? ==> StatusApplied(GetById(logs, communicationId).value, r.value.instance, status, externalId, now)
    ensures r.Success? ==> r.value.stored == logs
  {
    match GetById(logs, communicationId)
    case None => Failure(InvalidOperation(NotFoundMessage(communicationId)))
    case Some(l) => Success(Tracked(ApplyStatus(status, externalId, now)(l), logs))
  }

  /** The lost write: as written, a stored row whose status differs from the
      requested one still has its old status afterwards, while the saved
      version shows the new one. */
  lemma UpdateStatusAsWrittenLosesWrite(logs: Logs, communicationId: Guid, status: CommunicationStatus,
                                        externalId: Option<string>, now: Time)
    requires HasKey(logs, LogKey, communicationId)
    requires GetById(logs, communicationId).value.status != status
    ensures
      var w := UpdateStatusAsWritten(logs, communicationId, status, externalId, now);
      w.Success? && w.value.instance.status == status &&
      GetById(w.value.stored, communicationId).value.status != status
    ensures
      var r := UpdateStatus(logs, communicationId, status, externalId, now);
      r.Success? && GetById(r.value, communicationId).value.status == status
  {
    UpdateStatusReadBack(logs, communicationId, status, externalId, now);
  }

  function ApplyError(errorMessage: string): CommunicationLog -> CommunicationLog {
    (l: CommunicationLog) => l.(status := CommunicationStatus.Failed, errorMessage := Some(errorMessage))
  }

  /** `UpdateErrorAsync` with the change saved: the row is marked `Failed`
      with the message; an unknown id changes nothing. */
  function UpdateError(logs: Logs, communicationId: Guid, errorMessage: string): (r: Logs)
    ensures |r| == |logs|
    ensures forall i :: 0 <= i < |logs| && logs[i].communicationId == communicationId ==>
      && r[i].status == CommunicationStatus.Failed && r[i].errorMessage == Some(errorMessage)
      && r[i].(status := logs[i].status, errorMessage := logs[i].errorMessage) == logs[i]
    ensures forall i :: 0 <= i < |logs| && logs[i].communicationId != communicationId ==> r[i] == logs[i]
    ensures !HasKey(logs, LogKey, communicationId) ==> r == logs
  {
    Update(logs, LogKey, communicationId, ApplyError(errorMessage))
  }

  /** `UpdateErrorAsync` as written: the loaded instance is marked failed, the
      stored row is not. */
  function UpdateErrorAsWritten(logs: Logs, communicationId: Guid, errorMessage: string): (r: Option<Tracked<CommunicationLog>>)
    ensures r.None? <==> !HasKey(logs, LogKey, communicationId)
    ensures r.Some? ==> r.value.instance.status == CommunicationStatus.Failed
    ensures r.Some? ==> r.value.instance.errorMessage == Some(errorMessage)
    ensures r.Some? ==> r.value.stored == logs
  {
    match GetById(logs, communicationId)
    case None => None
    case Some(l) => Some(Tracked(ApplyError(errorMessage)(l), logs))
  }

  /** The lost write: as written, a row that was not yet failed stays so in
      the store; the saved version records the failure. */
  lemma UpdateErrorAsWrittenLosesWrite(logs: Logs, communicationId: Guid, errorMessage: string)
    requires HasKey(logs, LogKey, communicationId)
    requires GetById(logs, communicationId).value.status != CommunicationStatus.Failed
    ensures
      var w := UpdateErrorAsWritten(logs, communicationId, errorMessage);
      w.Some? && GetById(w.value.stored, communicationId).value.status != CommunicationStatus.Failed
    ensures GetById(UpdateError(logs, communicationId, errorMessage), communicationId).value ==
      GetById(logs, communicationId).value.(status := CommunicationStatus.Failed, errorMessage := Some(errorMessage))
  {
    FindAfterUpdate(logs, LogKey, communicationId, ApplyError(errorMessage));
  }
}

=== FILE: domain.dfy ===
/** The entities the pipeline reads and writes: subrogation cases, demand
    packages with their documents, and communication logs. Money amounts are
    exact decimals (`real`); no arithmetic is done on them. */
module Domain {

  import opened Wrappers
  import opened Primitives
  import opened Guids

  datatype PackageStatus = Draft | Generating | Generated | Sent | Failed

  datatype DocumentType = PoliceReport | Estimate | Photo | MedicalBill | RepairInvoice | Correspondence | Other

  datatype DocumentSource = ClaimSystem | UserUpload

  datatype CommunicationAction = InitialDemand | FollowUp | Response | FinalDemand

  datatype CommunicationChannel = Email | Print | Portal

  datatype CommunicationStatus = Queued | Sending | Sent | Delivered | Failed | Bounced

  datatype CaseStatus = Draft | DemandSent | ResponseReceived | Negotiating | Settled | Closed | Cancelled

  /** One asset intended for inclusion in a package. */
  datatype PackageDocument = PackageDocument(
    packageDocumentId: Guid,
    demandPackageId: Guid,
    documentName: string,
    docType: DocumentType,
    source: DocumentSource,
    blobStoragePath: string,
    externalDocumentId: Option<string>,
    displayOrder: int,
    isIncluded: bool,
    isSensitive: bool,
    uploadedAt: Time)

  /** One versioned document bundle for a case. `documents` is the navigation
      list: it is empty unless a query loads it explicitly. */
  datatype DemandPackage = DemandPackage(
    packageId: Guid,
    subrogationCaseId: Guid,
    tenantId: Guid,
    templateId: Option<Guid>,
    mergedCoverLetterPath: Option<string>,
    documents: seq<PackageDocument>,
    generatedPdfPath: Option<string>,
    pdfHash: Option<string>,
    pdfSizeBytes: int,
    pageCount: int,
    bookmarksJson: Option<string>,
    versionNumber: int,
    status: PackageStatus,
    createdAt: Time,
    createdBy: string)

  /** One delivery attempt of a package; recipient lists are stored as JSON text. */
  datatype CommunicationLog = CommunicationLog(
    communicationId: Guid,
    demandPackageId: Guid,
    tenantId: Guid,
    action: CommunicationAction,
    channel: CommunicationChannel,
    recipientsJson: string,
    ccRecipientsJson: Option<string>,
    emailSubject: Option<string>,
    emailBody: Option<string>,
    fromAddress: Option<string>,
    status: CommunicationStatus,
    deliveryTrackingId: Option<string>,
    sentAt: Option<Time>,
    deliveredAt: Option<Time>,
    errorMessage: Option<string>,
    initiatedBy: string,
    createdAt: Time)

  /** A subrogation case, the owner of demand packages. */
  datatype SubrogationCase = SubrogationCase(
    caseId: Guid,
    tenantId: Guid,
    claimId: string,
    policyNumber: string,
    lossDate: Time,
    insuredLiabilityPercent: real,
    thirdPartyLiabilityPercent: real,
    totalPaidIndemnity: real,
    totalPaidExpense: real,
    outstandingReserves: real,
    recoverySought: real,
    paymentBreakdown: string,
    status: CaseStatus,
    internalNotes: string,
    createdBy: string,
    createdAt: Time,
    modifiedBy: Option<string>,
    modifiedAt: Option<Time>)

  /** Primary keys, as the entity configurations declare them. */
  function PackageKey(p: DemandPackage): Guid { p.packageId }
  function DocumentKey(d: PackageDocument): Guid { d.packageDocumentId }
  function LogKey(l: CommunicationLog): Guid { l.communicationId }
  function CaseKey(c: SubrogationCase): Guid { c.caseId }
}

=== FILE: email_service.dfy ===
/** `SendGridEmailService.SendEmailAsync`: the guards, the assembly of the
    SendGrid message from an `EmailRequest`, and the mapping of the
    transport's answer to an `EmailResponse`. The HTTP transport is a
    parameter. */
module EmailService {

  import opened Wrappers
  import opened Primitives
  import Base64

  datatype EmailAttachment = EmailAttachment(fileName: string, content: seq<uint8>, contentType: string)

  datatype EmailRequest = EmailRequest(
    from: string,
    fromName: string,
    to: seq<string>,
    cc: Option<seq<string>>,
    bcc: Option<seq<string>>,
    subject: string,
    plainTextBody: string,
    htmlBody: Option<string>,
    attachments: Option<seq<EmailAttachment>>)

  datatype EmailResponse = EmailResponse(success: bool, messageId: Option<string>, errorMessage: Option<string>, statusCode: int)

  /** A SendGrid address; only the sender carries a display name. */
  datatype Address = Address(email: string, name: Option<string>)

  /** An attachment as SendGrid carries it: the content in base64. */
  datatype MailAttachment = MailAttachment(fileName: string, content: string, contentType: string)

  datatype SendGridMessage = SendGridMessage(
    from: Address,
    to: seq<Address>,
    cc: seq<Address>,
    bcc: seq<Address>,
    subject: string,
    plainTextContent: string,
    htmlContent: string,
    attachments: seq<MailAttachment>)

  /** What the transport does with a message: an HTTP answer (status code, the
      name .NET prints for it, the first `X-Message-Id` header value if the
      header is present, the body), or an exception with its message. */
  datatype TransportOutcome =
    | Responded(statusCode: int, statusName: string, messageIdHeader: Option<string>, body: string)
    | Threw(message: string)

  const ApiKeyMissingMessage: string := "SendGrid API Key is not configured"
  const NoRecipientMessage: string := "At least one recipient is required (Parameter 'request')"
  /** The message of the `InvalidOperationException` `HttpHeaders.GetValues` throws. */
  const HeaderNotFoundMessage: string := "The given header was not found."

  predicate IsSuccessStatusCode(code: int) {
    200 <= code <= 299
  }

  function Plain(email: string): Address {
    Address(email, None)
  }

  function Addresses(emails: seq<string>): (r: seq<Address>)
    ensures |r| == |emails|
    ensures forall i :: 0 <= i < |r| ==> r[i] == Plain(emails[i])
  {
    seq(|emails|, i requires 0 <= i < |emails| => Plain(emails[i]))
  }

  /** The e-mail addresses of a list, in order. */
  function Emails(addresses: seq<Address>): (r: seq<string>)
    ensures |r| == |addresses|
    ensures forall i :: 0 <= i < |r| ==> r[i] == addresses[i].email
  {
    seq(|addresses|, i requires 0 <= i < |addresses| => addresses[i].email)
  }

  function Encoded(a: EmailAttachment): MailAttachment {
    MailAttachment(a.fileName, Base64.Encode(a.content), a.contentType)
  }

  function OrEmpty<T>(o: Option<seq<T>>): seq<T> {
    if o.Some? then o.value else []
  }

  /** The message the service builds: the first recipient plus the others in
      order, the Cc and Bcc lists when present, the HTML body defaulting to
      the plain text wrapped in a paragraph, and every attachment base64-encoded. */
  function BuildMessage(request: EmailRequest): (m: SendGridMessage)
    requires |request.to| > 0
    ensures m.from == Address(request.from, Some(request.fromName))
    ensures Emails(m.to) == request.to && forall a :: a in m.to ==> a.name.None?
    ensures Emails(m.cc) == OrEmpty(request.cc) && Emails(m.bcc) == OrEmpty(request.bcc)
    ensures m.subject == request.subject && m.plainTextContent == request.plainTextBody
    ensures request.htmlBody.Some? ==> m.htmlContent == request.htmlBody.value
    ensures request.htmlBody.None? ==> m.htmlContent == "<p>" + request.plainTextBody + "</p>"
    ensures |m.attachments| == |OrEmpty(request.attachments)|
    ensures forall i :: 0 <= i < |m.attachments| ==>
      && m.attachments[i].fileName == OrEmpty(request.attachments)[i].fileName
      && m.attachments[i].contentType == OrEmpty(request.attachments)[i].contentType
      && Base64.Decode(m.attachments[i].content) == Some(OrEmpty(request.attachments)[i].content)
  {
    var html := if request.htmlBody.Some? then request.htmlBody.value else "<p>" + request.plainTextBody + "</p>";
    var to := [Plain(request.to[0])] + Addresses(request.to[1..]);
    assert Emails(to) == request.to;
    var attachments := OrEmpty(request.attachments);
    var encoded := seq(|attachments|, i requires 0 <= i < |attachments| => Encoded(attachments[i]));
    assert forall i :: 0 <= i < |encoded| ==> Base64.Decode(encoded[i].content) == Some(attachments[i].content) by {
      forall i | 0 <= i < |encoded|
        ensures Base64.Decode(encoded[i].content) == Some(attachments[i].content)
      {
        Base64.DecodeEncode(attachments[i].content);
      }
    }
    assert Emails(Addresses(OrEmpty(request.cc))) == OrEmpty(request.cc);
    assert Emails(Addresses(OrEmpty(request.bcc))) == OrEmpty(request.bcc);
    SendGridMessage(Address(request.from, Some(request.fromName)), to,
                    Addresses(OrEmpty(request.cc)), Addresses(OrEmpty(request.bcc)),
                    request.subject, request.plainTextBody, html, encoded)
  }

  function Failed(message: string, statusCode: int): EmailResponse {
    EmailResponse(false, None, Some(message), statusCode)
  }

  /** The answer mapped to a response once a message went out. */
  function Outcome(o: TransportOutcome): (r: EmailResponse)
    ensures r.success <==> o.Responded? && IsSuccessStatusCode(o.statusCode)
    ensures r.success ==> r.messageId == o.messageIdHeader && r.errorMessage.None?
    ensures !r.success ==> r.messageId.None? && r.errorMessage.Some?
    ensures r.statusCode == if o.Responded? then o.statusCode else 0
    ensures o.Responded? && !r.success ==>
      r.errorMessage == Some("SendGrid returned status " + o.statusName + ": " + o.body)
    ensures o.Threw? ==> r.errorMessage == Some(o.message)
  {
    match o
    case Threw(message) => Failed(message, 0)
    case Responded(code, name, messageId, body) =>
      if IsSuccessStatusCode(code) then EmailResponse(true, messageId, None, code)
      else Failed("SendGrid returned status " + name + ": " + body, code)
  }

  /** `SendEmailAsync` with a missing `X-Message-Id` header read as "no
      message id": the key guard, then the recipient guard (whose exception
      the catch block turns into a response), then one call to the transport. */
  function SendEmail(apiKey: string, transport: SendGridMessage -> TransportOutcome, request: EmailRequest): (r: EmailResponse)
    ensures apiKey == "" ==> r == Failed(ApiKeyMissingMessage, 0)
    ensures apiKey != "" && |request.to| == 0 ==> r == Failed(NoRecipientMessage, 0)
    ensures apiKey != "" && |request.to| > 0 ==> r == Outcome(transport(BuildMessage(request)))
    ensures r.success <==>
      apiKey != "" && |request.to| > 0 &&
      transport(BuildMessage(request)).Responded? && IsSuccessStatusCode(transport(BuildMessage(request)).statusCode)
  {
    if apiKey == "" then Failed(ApiKeyMissingMessage, 0)
    else if |request.to| == 0 then Failed(NoRecipientMessage, 0)
    else Outcome(transport(BuildMessage(request)))
  }

  /** `SendEmailAsync` as written: on a success status it reads the header
      with `GetValues`, which throws when the header is absent; the catch
      block reports that exception as a failure. */
  function SendEmailAsWritten(apiKey: string, transport: SendGridMessage -> TransportOutcome, request: EmailRequest): (r: EmailResponse)
    ensures apiKey == "" ==> r == Failed(ApiKeyMissingMessage, 0)
    ensures apiKey != "" && |request.to| == 0 ==> r == Failed(NoRecipientMessage, 0)
    ensures r.success ==>
      && |request.to| > 0
      && transport(BuildMessage(request)).Responded?
      && transport(BuildMessage(request)).messageIdHeader.Some?
  {
    if apiKey == "" then Failed(ApiKeyMissingMessage, 0)
    else if |request.to| == 0 then Failed(NoRecipientMessage, 0)
    else
      var o := transport(BuildMessage(request));
      if o.Responded? && IsSuccessStatusCode(o.statusCode) && o.messageIdHeader.None? then Failed(HeaderNotFoundMessage, 0)
      else Outcome(o)
  }

  /** The two agree whenever the header is present or the send did not succeed. */
  lemma AsWrittenAgreesWithHeader(apiKey: string, transport: SendGridMessage -> TransportOutcome, request: EmailRequest)
    requires apiKey != "" && |request.to| > 0
    requires transport(BuildMessage(request)).Threw? || transport(BuildMessage(request)).messageIdHeader.Some? ||
             !IsSuccessStatusCode(transport(BuildMessage(request)).statusCode)
    ensures SendEmailAsWritten(apiKey, transport, request) == SendEmail(apiKey, transport, request)
  {
  }

  /** The discrepancy: an accepted message (status 202) without the header is
      reported as failed with status 0, though SendGrid took it. */
  lemma AsWrittenRejectsAcceptedMail(apiKey: string, transport: SendGridMessage -> TransportOutcome, request: EmailRequest)
    requires apiKey != "" && |request.to| > 0
    requires transport(BuildMessage(request)) == Responded(202, "Accepted", None, "")
    ensures SendEmail(apiKey, transport, request) == EmailResponse(true, None, None, 202)
    ensures SendEmailAsWritten(apiKey, transport, request) == Failed(HeaderNotFoundMessage, 0)
  {
  }
}

=== FILE: email_worker.dfy ===
/** `SendEmailFunction`: delivers a queued package by e-mail and records the
    outcome on the communication log. The e-mail service is a parameter. */
module EmailWorker {

  import opened Wrappers
  import opened Primitives
  import opened Guids
  import opened Tables
  import opened Domain
  import opened Exceptions
  import opened Messaging
  import opened BlobStorage
  import opened Stores
  import opened EmailService
  import CommunicationRepository

  const SenderAddress: string := "noreply@subrogationsaas.com"
  const SenderName: string := "Subrogation SaaS"
  const InvalidMessage: string := "Invalid message format"
  const UnknownError: string := "Unknown error"

  /** The PDF attachment, when the message names a blob: downloaded from the
      packages container and named after the last segment of its path. */
  function Attachments(blobs: Blobs, m: EmailDeliveryMessage): (r: Result<Option<seq<EmailAttachment>>, Exception>)
    ensures IsNullOrEmpty(m.pdfBlobPath) ==> r == Success(None)
    ensures !IsNullOrEmpty(m.pdfBlobPath) ==>
      match DownloadPackage(blobs, m.pdfBlobPath.value)
      case Failure(e) => r == Failure(e)
      case Success(content) =>
        r == Success(Some([EmailAttachment(FileName(m.pdfBlobPath.value), content, PdfContentType)]))
  {
    if IsNullOrEmpty(m.pdfBlobPath) then Success(None)
    else
      var content :- DownloadPackage(blobs, m.pdfBlobPath.value);
      Success(Some([EmailAttachment(FileName(m.pdfBlobPath.value), content, PdfContentType)]))
  }

  /** The request handed to the e-mail service. */
  function Request(m: EmailDeliveryMessage, attachments: Option<seq<EmailAttachment>>): (q: EmailRequest)
    ensures q.from == SenderAddress && q.fromName == SenderName
    ensures q.to == m.recipients && q.cc == m.ccRecipients && q.bcc.None?
    ensures q.subject == m.subject && q.plainTextBody == m.body
    ensures q.htmlBody == Some("<p>" + m.body + "</p>")
    ensures q.attachments == attachments
  {
    EmailRequest(SenderAddress, SenderName, m.recipients, m.ccRecipients, None, m.subject, m.body,
                 Some("<p>" + m.body + "</p>"), attachments)
  }

  /** `Run`: a message whose body is the JSON literal `null` (the `None`
      input) is an `InvalidOperationException`; otherwise the log goes to
      `Sending` (an unknown log is an `InvalidOperationException`), the PDF is attached if the message names
      one, and the service's answer decides the rest: success marks the log
      `Sent` with the provider's message id; failure marks it `Failed` with
      the error (or "Unknown error") and throws. Every exception is rethrown
      for redelivery; only the log table ever changes. */
  function Run(s: Store, message: Option<EmailDeliveryMessage>, emailService: EmailRequest -> EmailResponse, now: Time): (r: WorkerRun)
    ensures message.None? ==> r == WorkerRun(s, Some(InvalidOperation(InvalidMessage)))
    ensures message.Some? && !HasKey(s.logs, LogKey, message.value.communicationId) ==>
      r == WorkerRun(s, Some(InvalidOperation(CommunicationRepository.NotFoundMessage(message.value.communicationId))))
    ensures r.store == s.(logs := r.store.logs)
    ensures message.Some? && HasKey(s.logs, LogKey, message.value.communicationId) ==>
      var m := message.value;
      var sending := CommunicationRepository.UpdateStatus(s.logs, m.communicationId, CommunicationStatus.Sending, None, now).value;
      match Attachments(s.blobs, m)
      case Failure(e) => r == WorkerRun(s.(logs := sending), Some(e))
      case Success(attachments) =>
        var response := emailService(Request(m, attachments));
        if response.success then
          r == WorkerRun(s.(logs := CommunicationRepository.UpdateStatus(sending, m.communicationId, CommunicationStatus.Sent,
                                                                        response.messageId, now).value), None)
        else
          r == WorkerRun(s.(logs := CommunicationRepository.UpdateError(sending, m.communicationId, response.errorMessage.GetOr(UnknownError))),
                         Some(General("Email send failed: " + response.errorMessage.GetOr(""))))
  {
    match message
    case None => WorkerRun(s, Some(InvalidOperation(InvalidMessage)))
    case Some(m) =>
      match CommunicationRepository.UpdateStatus(s.logs, m.communicationId, CommunicationStatus.Sending, None, now)
      case Failure(e) => WorkerRun(s, Some(e))
      case Success(sending) =>
        match Attachments(s.blobs, m)
        case Failure(e) => WorkerRun(s.(logs := sending), Some(e))
        case Success(attachments) =>
          var response := emailService(Request(m, attachments));
          if response.success then
            SendingKeepsLog(s.logs, m.communicationId, now);
            match CommunicationRepository.UpdateStatus(sending, m.communicationId, CommunicationStatus.Sent, response.messageId, now)
            case Failure(e) => WorkerRun(s.(logs := sending), Some(e))
            case Success(sent) => WorkerRun(s.(logs := sent), None)
          else
            WorkerRun(s.(logs := CommunicationRepository.UpdateError(sending, m.communicationId, response.errorMessage.GetOr(UnknownError))),
                      Some(General("Email send failed: " + response.errorMessage.GetOr(""))))
  }

  /** The row moved to `Sending` is still there for the final update. */
  lemma SendingKeepsLog(logs: seq<CommunicationLog>, communicationId: Guid, now: Time)
    requires HasKey(logs, LogKey, communicationId)
    ensures
      var r := CommunicationRepository.UpdateStatus(logs, communicationId, CommunicationStatus.Sending, None, now);
      r.Success? && HasKey(r.value, LogKey, communicationId)
  {
    var i :| 0 <= i < |logs| && logs[i].communicationId == communicationId;
    var r := CommunicationRepository.UpdateStatus(logs, communicationId, CommunicationStatus.Sending, None, now);
    assert r.value[i].communicationId == communicationId;
  }

  /** A delivery of a PDF stored by the generation worker attaches it under
      the name "package.pdf" with its stored content. */
  lemma GeneratedPdfIsAttached(blobs: Blobs, m: EmailDeliveryMessage, tenantId: Guid, packageId: Guid, content: seq<uint8>)
    requires m.pdfBlobPath == Some(BlobPath(tenantId, packageId, PackageFileName))
    requires DownloadPackage(blobs, m.pdfBlobPath.value) == Success(content)
    ensures Attachments(blobs, m) == Success(Some([EmailAttachment(PackageFileName, content, PdfContentType)]))
  {
    FileNameOfBlobPath(tenantId, packageId, PackageFileName);
  }

  /** When the service accepts the mail, the log reads back as `Sent` at
      `now`, with the provider's id if it gave one. */
  lemma SuccessMarksSent(s: Store, m: EmailDeliveryMessage, emailService: EmailRequest -> EmailResponse, now: Time)
    requires HasKey(s.logs, LogKey, m.communicationId)
    requires Attachments(s.blobs, m).Success?
    requires emailService(Request(m, Attachments(s.blobs, m).value)).success
    ensures
      var r := Run(s, Some(m), emailService, now);
      var response := emailService(Request(m, Attachments(s.blobs, m).value));
      var l := CommunicationRepository.GetById(r.store.logs, m.communicationId);
      && r.error.None?
      && l.Some?
      && l.value.status == CommunicationStatus.Sent
      && l.value.sentAt == Some(now)
      && (response.messageId.Some? ==> l.value.deliveryTrackingId == response.messageId)
  {
    SendingKeepsLog(s.logs, m.communicationId, now);
    var sending := CommunicationRepository.UpdateStatus(s.logs, m.communicationId, CommunicationStatus.Sending, None, now).value;
    var response := emailService(Request(m, Attachments(s.blobs, m).value));
    CommunicationRepository.UpdateStatusReadBack(sending, m.communicationId, CommunicationStatus.Sent, response.messageId, now);
  }

  /** When the service refuses the mail, the log reads back as `Failed` with
      the service's error (or "Unknown error") and the run throws. */
  lemma FailureMarksFailed(s: Store, m: EmailDeliveryMessage, emailService: EmailRequest -> EmailResponse, now: Time)
    requires HasKey(s.logs, LogKey, m.communicationId)
    requires Attachments(s.blobs, m).Success?
    requires !emailService(Request(m, Attachments(s.blobs, m).value)).success
    ensures
      var r := Run(s, Some(m), emailService, now);
      var response := emailService(Request(m, Attachments(s.blobs, m).value));
      var l := CommunicationRepository.GetById(r.store.logs, m.communicationId);
      && r.error == Some(General("Email send failed: " + response.errorMessage.GetOr("")))
      && l.Some?
      && l.value.status == CommunicationStatus.Failed
      && l.value.errorMessage == Some(response.errorMessage.GetOr(UnknownError))
  {
    SendingKeepsLog(s.logs, m.communicationId, now);
    var sending := CommunicationRepository.UpdateStatus(s.logs, m.communicationId, CommunicationStatus.Sending, None, now).value;
    var response := emailService(Request(m, Attachments(s.blobs, m).value));
    FindAfterUpdate(sending, LogKey, m.communicationId, CommunicationRepository.ApplyError(response.errorMessage.GetOr(UnknownError)));
  }
}

=== FILE: exceptions.dfy ===
/** The exceptions the modelled code raises or lets through. */
module Exceptions {

  datatype Exception =
    | InvalidOperation(message: string)       // System.InvalidOperationException
    | Argument(message: string)               // System.ArgumentException
    | DuplicateKey                            // EF Core: an insert whose primary key is already stored
    | ConcurrencyConflict                     // EF Core: an update of a whole entity that matched no row
    | ForeignKeyViolation                     // SQL Server: a document whose package does not exist
    | BlobNotFound(container: string, path: string)  // Azure.RequestFailedException, status 404
    | Infrastructure(service: string)         // a failure inside a foreign service (renderer, storage, database)
    | NullReference                           // System.NullReferenceException
    | General(message: string)                // System.Exception
}

=== FILE: guids.dfy ===
/** `System.Guid` as far as the pipeline uses it: the default `ToString()`
    rendering (format "D", lower case) that blob paths and error messages embed,
    and `Guid.TryParse`, which the tenant claim goes through. */
module Guids {

  import opened Wrappers
  import opened Primitives
  import Hex

  /** A GUID as its 32 hexadecimal digits, in the order `ToString()` prints them. */
  type Guid = s: seq<Hex.Nibble> | |s| == 32 witness seq(32, _ => 0)

  /** `Guid.Empty`. */
  const Empty: Guid := seq(32, _ => 0)

  function Digits(g: seq<Hex.Nibble>): (r: string)
    ensures |r| == |g|
    ensures forall i :: 0 <= i < |g| ==> r[i] == Hex.LowerDigit(g[i])
  {
    seq(|g|, i requires 0 <= i < |g| => Hex.LowerDigit(g[i]))
  }

  /** `g.ToString()`: format "D", 8-4-4-4-12 lower-case digits joined by '-'. */
  function ToString(g: Guid): (r: string)
    ensures |r| == 36
    ensures r[8] == '-' && r[13] == '-' && r[18] == '-' && r[23] == '-'
  {
    Digits(g[..8]) + "-" + Digits(g[8..12]) + "-" + Digits(g[12..16]) + "-"
    + Digits(g[16..20]) + "-" + Digits(g[20..])
  }

  /** Every character is a hexadecimal digit; the digits' values in order. */
  function ParseDigits(s: string): (r: Option<seq<Hex.Nibble>>)
    ensures r.Some? ==> |r.value| == |s|
    ensures r.Some? <==> forall i :: 0 <= i < |s| ==> Hex.DigitValue(s[i]).Some?
  {
    if |s| == 0 then Some([])
    else match (Hex.DigitValue(s[0]), ParseDigits(s[1..]))
      case (Some(d), Some(rest)) => Some([d] + rest)
      case _ => None
  }

  /** Format "D": 36 characters with dashes at offsets 8, 13, 18 and 23. */
  function ParseD(s: string): (r: Option<Guid>)
    ensures r.Some? ==> |s| == 36
  {
    if |s| == 36 && s[8] == '-' && s[13] == '-' && s[18] == '-' && s[23] == '-' then
      match ParseDigits(s[..8] + s[9..13] + s[14..18] + s[19..23] + s[24..])
      case Some(d) => Some(d)
      case None => None
    else None
  }

  /** Format "N": 32 digits and nothing else. */
  function ParseN(s: string): (r: Option<Guid>)
    ensures r.Some? ==> |s| == 32
  {
    if |s| == 32 then
      match ParseDigits(s)
      case Some(d) => Some(d)
      case None => None
    else None
  }

  /** `Guid.TryParse(s, out g)`: formats "D", "N", "B" (`{D}`) and "P" (`(D)`). */
  function TryParse(s: string): (r: Option<Guid>)
    ensures r.Some? ==> |s| in {32, 36, 38}
  {
    if |s| == 38 && ((s[0] == '{' && s[37] == '}') || (s[0] == '(' && s[37] == ')')) then ParseD(s[1..37])
    else if |s| == 36 then ParseD(s)
    else ParseN(s)
  }

  lemma {:induction false} ParseDigitsOfDigits(g: seq<Hex.Nibble>)
    ensures ParseDigits(Digits(g)) == Some(g)
  {
    if |g| > 0 {
      Hex.DigitValueInverts(g[0]);
      assert Digits(g)[1..] == Digits(g[1..]);
      ParseDigitsOfDigits(g[1..]);
      assert [g[0]] + g[1..] == g;
    }
  }

  /** Parsing the default rendering gives back the GUID. */
  lemma ParseToString(g: Guid)
    ensures TryParse(ToString(g)) == Some(g)
  {
    var s := ToString(g);
    var a, b, c, d, e := Digits(g[..8]), Digits(g[8..12]), Digits(g[12..16]), Digits(g[16..20]), Digits(g[20..]);
    assert s == a + "-" + b + "-" + c + "-" + d + "-" + e;
    assert s[..8] == a;
    assert s[9..13] == b;
    assert s[14..18] == c;
    assert s[19..23] == d;
    assert s[24..] == e;
    assert a + b + c + d + e == Digits(g);
    ParseDigitsOfDigits(g);
  }

  /** Distinct GUIDs render differently. */
  lemma ToStringInjective(a: Guid, b: Guid)
    ensures ToString(a) == ToString(b) <==> a == b
  {
    if ToString(a) == ToString(b) {
      ParseToString(a);
      ParseToString(b);
    }
  }

  /** No rendered GUID contains a path separator. */
  lemma ToStringHasNoSlash(g: Guid)
    ensures '/' !in ToString(g)
  {
    var s := ToString(g);
    forall k | 0 <= k < 36
      ensures s[k] != '/'
    {
      if k !in {8, 13, 18, 23} {
        var i := if k < 8 then k else if k < 13 then k - 1 else if k < 18 then k - 2 else if k < 23 then k - 3 else k - 4;
        assert s[k] == Digits(g)[i];
      }
    }
  }
}

=== FILE: hex.dfy ===
/** Base16 rendering of byte strings (section 8 of RFC 4648), and the
    `BitConverter.ToString` / `Replace` / `ToLowerInvariant` chain the PDF
    worker uses to print a SHA-256 digest. */
module Hex {

  import opened Wrappers
  import opened Primitives

  /** A four-bit value: one hexadecimal digit. */
  type Nibble = n: int | 0 <= n < 16

  /** The lower-case digit of the base16 alphabet. */
  function LowerDigit(n: Nibble): (c: char)
    ensures '0' <= c <= '9' || 'a' <= c <= 'f'
  {
    if n < 10 then ('0' as int + n) as char else ('a' as int + n - 10) as char
  }

  /** The upper-case digit of the base16 alphabet (RFC 4648, table 5). */
  function UpperDigit(n: Nibble): (c: char)
    ensures '0' <= c <= '9' || 'A' <= c <= 'F'
  {
    if n < 10 then ('0' as int + n) as char else ('A' as int + n - 10) as char
  }

  /** Case-insensitive value of a hexadecimal digit; `None` for any other character. */
  function DigitValue(c: char): (r: Option<Nibble>)
    ensures r.Some? <==> ('0' <= c <= '9' || 'a' <= c <= 'f' || 'A' <= c <= 'F')
  {
    if '0' <= c <= '9' then Some(c as int - '0' as int)
    else if 'a' <= c <= 'f' then Some(c as int - 'a' as int + 10)
    else if 'A' <= c <= 'F' then Some(c as int - 'A' as int + 10)
    else None
  }

  lemma DigitValueInverts(n: Nibble)
    ensures DigitValue(LowerDigit(n)) == Some(n)
    ensures DigitValue(UpperDigit(n)) == Some(n)
    ensures ToLowerAscii(UpperDigit(n)) == LowerDigit(n)
  {
  }

  /** Base16 with lower-case letters, high nibble first, no separators. */
  function EncodeLower(b: seq<uint8>): (r: string)
    ensures |r| == 2 * |b|
    ensures forall i :: 0 <= i < |b| ==> r[2 * i] == LowerDigit(b[i] / 16) && r[2 * i + 1] == LowerDigit(b[i] % 16)
    ensures forall k :: 0 <= k < |r| ==> '0' <= r[k] <= '9' || 'a' <= r[k] <= 'f'
  {
    if |b| == 0 then "" else [LowerDigit(b[0] / 16), LowerDigit(b[0] % 16)] + EncodeLower(b[1..])
  }

  /** Base16 with upper-case letters (what `BitConverter` prints per byte). */
  function EncodeUpper(b: seq<uint8>): (r: string)
    ensures |r| == 2 * |b|
  {
    if |b| == 0 then "" else [UpperDigit(b[0] / 16), UpperDigit(b[0] % 16)] + EncodeUpper(b[1..])
  }

  /** Base16 decoding; letters of either case are accepted, as RFC 4648 allows. */
  function Decode(s: string): (r: Option<seq<uint8>>)
    ensures r.Some? ==> 2 * |r.value| == |s|
    decreases |s|
  {
    if |s| == 0 then Some([])
    else if |s| == 1 then None
    else match (DigitValue(s[0]), DigitValue(s[1]))
      case (Some(hi), Some(lo)) =>
        (match Decode(s[2..])
         case Some(rest) => var v: uint8 := (hi as int) * 16 + lo; Some([v] + rest)
         case None => None)
      case _ => None
  }

  /** Decoding a lower-case rendering gives back the bytes. */
  lemma {:induction false} DecodeEncodeLower(b: seq<uint8>)
    ensures Decode(EncodeLower(b)) == Some(b)
  {
    if |b| > 0 {
      var s := EncodeLower(b);
      DigitValueInverts(b[0] / 16);
      DigitValueInverts(b[0] % 16);
      assert s[2..] == EncodeLower(b[1..]);
      DecodeEncodeLower(b[1..]);
      assert [b[0]] + b[1..] == b;
    }
  }

  /** Two byte strings with the same rendering are equal. */
  lemma EncodeLowerInjective(a: seq<uint8>, b: seq<uint8>)
    ensures EncodeLower(a) == EncodeLower(b) <==> a == b
  {
    if EncodeLower(a) == EncodeLower(b) {
      DecodeEncodeLower(a);
      DecodeEncodeLower(b);
    }
  }

  /** `BitConverter.ToString`: upper-case digit pairs joined by '-'. */
  function BitConverterToString(b: seq<uint8>): (r: string)
    ensures |b| > 0 ==> |r| == 3 * |b| - 1
    ensures |b| == 0 ==> r == ""
  {
    if |b| == 0 then ""
    else if |b| == 1 then EncodeUpper(b)
    else EncodeUpper(b[..1]) + "-" + BitConverterToString(b[1..])
  }

  /** `s.Replace("-", "")`: every '-' removed, the rest kept in order. */
  function RemoveDashes(s: string): (r: string)
    ensures '-' !in r
    ensures forall c :: c in r <==> c in s && c != '-'
  {
    if |s| == 0 then "" else (if s[0] == '-' then "" else [s[0]]) + RemoveDashes(s[1..])
  }

  lemma {:induction false} RemoveDashesAppend(a: string, b: string)
    ensures RemoveDashes(a + b) == RemoveDashes(a) + RemoveDashes(b)
  {
    if |a| > 0 {
      assert (a + b)[1..] == a[1..] + b;
      RemoveDashesAppend(a[1..], b);
    } else {
      assert a + b == b;
    }
  }

  lemma {:induction false} RemoveDashesKeepsDigits(b: seq<uint8>)
    ensures RemoveDashes(EncodeUpper(b)) == EncodeUpper(b)
  {
    if |b| > 0 {
      RemoveDashesAppend([UpperDigit(b[0] / 16), UpperDigit(b[0] % 16)], EncodeUpper(b[1..]));
      RemoveDashesKeepsDigits(b[1..]);
    }
  }

  lemma {:induction false} UpperThenLower(b: seq<uint8>)
    ensures ToLowerAsciiString(EncodeUpper(b)) == EncodeLower(b)
  {
    if |b| > 0 {
      DigitValueInverts(b[0] / 16);
      DigitValueInverts(b[0] % 16);
      UpperThenLower(b[1..]);
      var u := EncodeUpper(b);
      assert u[2..] == EncodeUpper(b[1..]);
      assert ToLowerAsciiString(u)[2..] == ToLowerAsciiString(u[2..]);
    }
  }

  lemma {:induction false} BitConverterWithoutDashes(b: seq<uint8>)
    ensures RemoveDashes(BitConverterToString(b)) == EncodeUpper(b)
  {
    if |b| == 1 {
      RemoveDashesKeepsDigits(b);
    } else if |b| > 1 {
      var head := EncodeUpper(b[..1]);
      RemoveDashesAppend(head + "-", BitConverterToString(b[1..]));
      RemoveDashesAppend(head, "-");
      RemoveDashesKeepsDigits(b[..1]);
      BitConverterWithoutDashes(b[1..]);
      assert EncodeUpper(b) == head + EncodeUpper(b[1..]);
    }
  }

  /** `BitConverter.ToString(b).Replace("-", "").ToLowerInvariant()`: the
      characters outside ASCII are never produced, so ASCII lower-casing is exact. */
  function DashedUpperToLower(b: seq<uint8>): (r: string)
    ensures r == EncodeLower(b)
  {
    BitConverterWithoutDashes(b);
    UpperThenLower(b);
    ToLowerAsciiString(RemoveDashes(BitConverterToString(b)))
  }
}

=== FILE: http.dfy ===
/** The controller results the API returns, and the per-request inputs that
    come from outside the program: the signed-in user's name, the clock,
    `Guid.NewGuid` and whether Service Bus is configured. */
module Http {

  import opened Wrappers
  import opened Primitives
  import opened Guids
  import opened Exceptions
  import opened Stores

  datatype ActionResult<+T> =
    | Ok(value: T)
    | Created(value: T)          // 201 with a location
    | Accepted(value: T)         // 202
    | NoContent                  // 204
    | BadRequest(message: string)
    | NotFound
    | ServerError(error: Exception)  // an exception the action lets through

  /** An action's result together with the store it leaves behind. */
  datatype Handled<+T> = Handled(result: ActionResult<T>, store: Store)

  datatype RequestContext = RequestContext(userName: Option<string>, now: Time, newId: Guid, busConfigured: bool)

  /** `User.Identity?.Name ?? "System"`. */
  function Actor(ctx: RequestContext): (r: string)
    ensures ctx.userName.Some? ==> r == ctx.userName.value
    ensures ctx.userName.None? ==> r == "System"
  {
    ctx.userName.GetOr("System")
  }
}

=== FILE: messaging.dfy ===
/** The two queue messages between the API and the workers, and the Service
    Bus gateway reduced to its observable effect: an append-only outbox. */
module Messaging {

  import opened Wrappers
  import opened Primitives
  import opened Guids

  const PdfGenerationQueue: string := "pdf-generation"
  const EmailDeliveryQueue: string := "email-delivery"

  /** Asks the PDF worker to render one package. */
  datatype PdfGenerationMessage = PdfGenerationMessage(
    packageId: Guid,
    tenantId: Guid,
    subrogationCaseId: Guid,
    requestedBy: string,
    requestedAt: Time)

  /** Asks the email worker to deliver one generated package. */
  datatype EmailDeliveryMessage = EmailDeliveryMessage(
    communicationId: Guid,
    packageId: Guid,
    tenantId: Guid,
    recipients: seq<string>,
    ccRecipients: Option<seq<string>>,
    subject: string,
    body: string,
    pdfBlobPath: Option<string>,
    requestedAt: Time)

  datatype Payload = PdfGeneration(pdf: PdfGenerationMessage) | EmailDelivery(email: EmailDeliveryMessage)

  /** A message handed to the bus, with the queue it was sent to. */
  datatype Envelope = Envelope(queueName: string, payload: Payload)

  /** `SendMessageAsync(queueName, message)`: without a configured connection
      the send is skipped; otherwise exactly this message is appended. */
  function SendMessage(outbox: seq<Envelope>, busConfigured: bool, queueName: string, payload: Payload): (r: seq<Envelope>)
    ensures !busConfigured ==> r == outbox
    ensures busConfigured ==> |r| == |outbox| + 1 && r[..|outbox|] == outbox && r[|outbox|] == Envelope(queueName, payload)
  {
    if busConfigured then outbox + [Envelope(queueName, payload)] else outbox
  }
}

=== FILE: package_repository.dfy ===
/** `DemandPackageRepository`: queries and narrow field updates over the
    DemandPackages and PackageDocuments tables. */
module PackageRepository {

  import opened Wrappers
  import opened Primitives
  import opened Guids
  import opened Tables
  import opened Domain
  import opened Exceptions

  type Packages = seq<DemandPackage>
  type Documents = seq<PackageDocument>

  function DisplayOrderKey(d: PackageDocument): int { d.displayOrder }
  function VersionKey(p: DemandPackage): int { p.versionNumber }
  function CreatedAtKey(p: DemandPackage): int { p.createdAt }

  function OfPackage(packageId: Guid): PackageDocument -> bool {
    (d: PackageDocument) => d.demandPackageId == packageId
  }

  function OfCase(caseId: Guid): DemandPackage -> bool {
    (p: DemandPackage) => p.subrogationCaseId == caseId
  }

  function WithStatus(status: PackageStatus): DemandPackage -> bool {
    (p: DemandPackage) => p.status == status
  }

  function OtherThan(documentId: Guid): PackageDocument -> bool {
    (d: PackageDocument) => d.packageDocumentId != documentId
  }

  /** `GetByIdAsync`: the stored row, or `None` for an unknown id. */
  function GetById(packages: Packages, packageId: Guid): (r: Option<DemandPackage>)
    ensures r.None? <==> !HasKey(packages, PackageKey, packageId)
    ensures r.Some? ==> r.value in packages && r.value.packageId == packageId
  {
    Find(packages, PackageKey, packageId)
  }

  /** `GetByIdWithDocumentsAsync`: the row with its document list loaded by a
      second query, ordered by `DisplayOrder`. */
  function GetByIdWithDocuments(packages: Packages, documents: Documents, packageId: Guid): (r: Option<DemandPackage>)
    ensures r.None? <==> !HasKey(packages, PackageKey, packageId)
    ensures r.Some? ==> GetById(packages, packageId) == Some(r.value.(documents := GetById(packages, packageId).value.documents))
    ensures r.Some? ==> forall d :: d in r.value.documents <==> d in documents && d.demandPackageId == packageId
    ensures r.Some? ==> multiset(r.value.documents) == multiset(Filter(documents, OfPackage(packageId)))
    ensures r.Some? ==> SortedBy(r.value.documents, DisplayOrderKey)
  {
    match GetById(packages, packageId)
    case None => None
    case Some(p) =>
      var docs := SortBy(Filter(documents, OfPackage(packageId)), DisplayOrderKey);
      SameMultiset(docs, Filter(documents, OfPackage(packageId)));
      Some(p.(documents := docs))
  }

  /** `GetByCaseIdAsync`: the case's packages, highest version first. */
  function GetByCaseId(packages: Packages, caseId: Guid): (r: Packages)
    ensures forall p :: p in r <==> p in packages && p.subrogationCaseId == caseId
    ensures multiset(r) == multiset(Filter(packages, OfCase(caseId)))
    ensures SortedDescendingBy(r, VersionKey)
  {
    var r := SortByDescending(Filter(packages, OfCase(caseId)), VersionKey);
    SameMultiset(r, Filter(packages, OfCase(caseId)));
    r
  }

  /** `GetLatestByCaseIdAsync`: a package with the highest version of the case. */
  function GetLatestByCaseId(packages: Packages, caseId: Guid): (r: Option<DemandPackage>)
    ensures r.None? <==> forall p :: p in packages ==> p.subrogationCaseId != caseId
    ensures r.Some? ==> r.value in packages && r.value.subrogationCaseId == caseId
    ensures r.Some? ==> forall p :: p in packages && p.subrogationCaseId == caseId ==> p.versionNumber <= r.value.versionNumber
  {
    var ordered := GetByCaseId(packages, caseId);
    if |ordered| == 0 then None
    else
      assert forall p :: p in ordered ==> ordered[0].versionNumber >= p.versionNumber;
      Some(ordered[0])
  }

  /** `CreateAsync`: the package is inserted without its navigation list. */
  function Create(packages: Packages, package: DemandPackage): (r: Result<Packages, Exception>)
    ensures r.Failure? <==> HasKey(packages, PackageKey, package.packageId)
    ensures r.Failure? ==> r.error == DuplicateKey
    ensures r.Success? ==> GetById(r.value, package.packageId) == Some(package.(documents := []))
    ensures r.Success? ==> r.value == packages + [package.(documents := [])]
    ensures r.Success? && UniqueKeys(packages, PackageKey) ==> UniqueKeys(r.value, PackageKey)
  {
    match Insert(packages, PackageKey, package.(documents := []))
    case None => Failure(DuplicateKey)
    case Some(t) => Success(t)
  }

  function SetStatus(status: PackageStatus): DemandPackage -> DemandPackage {
    (p: DemandPackage) => p.(status := status)
  }

  /** `UpdateStatusAsync`: only `Status` of the matching row changes; an
      unknown id matches nothing. */
  function UpdateStatus(packages: Packages, packageId: Guid, status: PackageStatus): (r: Packages)
    ensures |r| == |packages|
    ensures forall i :: 0 <= i < |r| ==> r[i].(status := packages[i].status) == packages[i]
    ensures forall i :: 0 <= i < |r| && packages[i].packageId == packageId ==> r[i].status == status
    ensures forall i :: 0 <= i < |r| && packages[i].packageId != packageId ==> r[i] == packages[i]
    ensures !HasKey(packages, PackageKey, packageId) ==> r == packages
  {
    Update(packages, PackageKey, packageId, SetStatus(status))
  }

  function SetGeneratedPdf(pdfPath: string, pdfHash: string, sizeBytes: int, pageCount: int): DemandPackage -> DemandPackage {
    (p: DemandPackage) => p.(generatedPdfPath := Some(pdfPath), pdfHash := Some(pdfHash), pdfSizeBytes := sizeBytes,
            pageCount := pageCount, status := PackageStatus.Generated)
  }

  /** The five fields `UpdateGeneratedPdfAsync` writes, and nothing else, differ. */
  predicate OnlyArtifactFieldsDiffer(before: DemandPackage, after: DemandPackage) {
    after.(generatedPdfPath := before.generatedPdfPath, pdfHash := before.pdfHash,
           pdfSizeBytes := before.pdfSizeBytes, pageCount := before.pageCount, status := before.status) == before
  }

  /** `UpdateGeneratedPdfAsync`: path, hash, size, page count and status
      `Generated` are written together on the matching row. */
  function UpdateGeneratedPdf(packages: Packages, packageId: Guid, pdfPath: string, pdfHash: string,
                              sizeBytes: int, pageCount: int): (r: Packages)
    ensures |r| == |packages|
    ensures forall i :: 0 <= i < |r| ==> OnlyArtifactFieldsDiffer(packages[i], r[i])
    ensures forall i :: 0 <= i < |r| && packages[i].packageId == packageId ==>
      && r[i].generatedPdfPath == Some(pdfPath) && r[i].pdfHash == Some(pdfHash)
      && r[i].pdfSizeBytes == sizeBytes && r[i].pageCount == pageCount
      && r[i].status == PackageStatus.Generated
    ensures forall i :: 0 <= i < |r| && packages[i].packageId != packageId ==> r[i] == packages[i]
  {
    Update(packages, PackageKey, packageId, SetGeneratedPdf(pdfPath, pdfHash, sizeBytes, pageCount))
  }

  /** Writing the same artifact twice is writing it once. */
  lemma UpdateGeneratedPdfIdempotent(packages: Packages, packageId: Guid, pdfPath: string, pdfHash: string,
                                     sizeBytes: int, pageCount: int)
    ensures
      var once := UpdateGeneratedPdf(packages, packageId, pdfPath, pdfHash, sizeBytes, pageCount);
      UpdateGeneratedPdf(once, packageId, pdfPath, pdfHash, sizeBytes, pageCount) == once
  {
    var once := UpdateGeneratedPdf(packages, packageId, pdfPath, pdfHash, sizeBytes, pageCount);
    var twice := UpdateGeneratedPdf(once, packageId, pdfPath, pdfHash, sizeBytes, pageCount);
    forall i | 0 <= i < |once|
      ensures twice[i] == once[i]
    {
    }
  }

  /** `AddDocumentAsync`: insertion, refused on a taken key or (by the foreign
      key to DemandPackages) a package that does not exist. */
  function AddDocument(packages: Packages, documents: Documents, document: PackageDocument): (r: Result<Documents, Exception>)
    ensures r.Success? <==> HasKey(packages, PackageKey, document.demandPackageId) && !HasKey(documents, DocumentKey, document.packageDocumentId)
    ensures r.Success? ==> r.value == documents + [document]
  {
    if !HasKey(packages, PackageKey, document.demandPackageId) then Failure(ForeignKeyViolation)
    else match Insert(documents, DocumentKey, document)
      case None => Failure(DuplicateKey)
      case Some(t) => Success(t)
  }

  /** `DeleteDocumentAsync`: exactly the rows with that id go; an absent id
      leaves the table as it is. */
  function DeleteDocument(documents: Documents, documentId: Guid): (r: Documents)
    ensures forall d :: d in r <==> d in documents && d.packageDocumentId != documentId
    ensures !HasKey(documents, DocumentKey, documentId) ==> r == documents
  {
    if !HasKey(documents, DocumentKey, documentId) then
      FilterAll(documents, OtherThan(documentId));
      Filter(documents, OtherThan(documentId))
    else Filter(documents, OtherThan(documentId))
  }

  function SetDisplayOrder(order: int): PackageDocument -> PackageDocument {
    (d: PackageDocument) => d.(displayOrder := order)
  }

  /** `UpdateDocumentOrderAsync`: one update per dictionary entry, in the
      dictionary's (unspecified) order; the outcome does not depend on it. */
  method UpdateDocumentOrder(documents: Documents, documentOrders: map<Guid, int>) returns (r: Documents)
    ensures |r| == |documents|
    ensures forall i :: 0 <= i < |r| && documents[i].packageDocumentId in documentOrders ==>
      r[i] == documents[i].(displayOrder := documentOrders[documents[i].packageDocumentId])
    ensures forall i :: 0 <= i < |r| && documents[i].packageDocumentId !in documentOrders ==> r[i] == documents[i]
  {
    r := documents;
    var pending := documentOrders.Keys;
    while pending != {}
      invariant pending <= documentOrders.Keys
      invariant |r| == |documents|
      invariant forall i :: 0 <= i < |r| && documents[i].packageDocumentId in documentOrders && documents[i].packageDocumentId !in pending ==>
        r[i] == documents[i].(displayOrder := documentOrders[documents[i].packageDocumentId])
      invariant forall i :: 0 <= i < |r| && (documents[i].packageDocumentId !in documentOrders || documents[i].packageDocumentId in pending) ==>
        r[i] == documents[i]
      decreases pending
    {
      var documentId :| documentId in pending;
      r := Update(r, DocumentKey, documentId, SetDisplayOrder(documentOrders[documentId]));
      pending := pending - {documentId};
    }
  }

  /** The projection `GetByStatusAsync` returns. */
  datatype PackageSummary = PackageSummary(packageId: Guid, caseId: Guid, status: PackageStatus, createdAt: Time)

  function Summary(p: DemandPackage): PackageSummary {
    PackageSummary(p.packageId, p.subrogationCaseId, p.status, p.createdAt)
  }

  function Summaries(s: Packages): (r: seq<PackageSummary>)
    ensures |r| == |s| && forall i :: 0 <= i < |s| ==> r[i] == Summary(s[i])
  {
    seq(|s|, i requires 0 <= i < |s| => Summary(s[i]))
  }

  /** The packages `GetByStatusAsync` selects before projecting them. */
  function OldestWithStatus(packages: Packages, status: PackageStatus, limit: int): (r: Packages)
    ensures |r| <= if limit < 0 then 0 else limit
    ensures forall p :: p in r ==> p in packages && p.status == status
    ensures SortedBy(r, CreatedAtKey)
    ensures forall p :: p in packages && p.status == status && p !in r ==>
      |r| >= limit && forall q :: q in r ==> q.createdAt <= p.createdAt
  {
    var ordered := SortBy(Filter(packages, WithStatus(status)), CreatedAtKey);
    SameMultiset(ordered, Filter(packages, WithStatus(status)));
    TakeSorted(ordered, CreatedAtKey, limit);
    Take(ordered, limit)
  }

  /** Each summary projects a package of the requested status. */
  lemma SummariesDrawn(packages: Packages, taken: Packages, status: PackageStatus)
    requires forall p :: p in taken ==> p in packages && p.status == status
    ensures forall i :: 0 <= i < |taken| ==>
      Summaries(taken)[i].status == status && exists p :: p in packages && Summary(p) == Summaries(taken)[i]
  {
    forall i | 0 <= i < |taken|
      ensures Summaries(taken)[i].status == status && exists p :: p in packages && Summary(p) == Summaries(taken)[i]
    {
      assert taken[i] in taken;
    }
  }

  /** Projection keeps the creation-time order. */
  lemma SummariesSorted(taken: Packages)
    requires SortedBy(taken, CreatedAtKey)
    ensures forall i, j :: 0 <= i < j < |taken| ==> Summaries(taken)[i].createdAt <= Summaries(taken)[j].createdAt
  {
    forall i, j | 0 <= i < j < |taken|
      ensures Summaries(taken)[i].createdAt <= Summaries(taken)[j].createdAt
    {
      assert CreatedAtKey(taken[i]) <= CreatedAtKey(taken[j]);
    }
  }

  /** `GetByStatusAsync`: the oldest `limit` packages with that status, oldest
      first, projected to their summary. */
  function GetByStatus(packages: Packages, status: PackageStatus, limit: int): (r: seq<PackageSummary>)
    ensures |r| <= if limit < 0 then 0 else limit
    ensures forall i :: 0 <= i < |r| ==> r[i].status == status && exists p :: p in packages && Summary(p) == r[i]
    ensures forall i, j :: 0 <= i < j < |r| ==> r[i].createdAt <= r[j].createdAt
    ensures forall p :: p in packages && p.status == status && Summary(p) !in r ==>
      |r| >= limit && forall i :: 0 <= i < |r| ==> r[i].createdAt <= p.createdAt
  {
    var taken := OldestWithStatus(packages, status, limit);
    SummariesDrawn(packages, taken, status);
    SummariesSorted(taken);
    Summaries(taken)
  }
}

=== FILE: packages_controller.dfy ===
/** `DemandPackagesController`: the API half of the pipeline. Creating a
    package, queueing its generation, and queueing its delivery. */
module PackagesController {

  import opened Wrappers
  import opened Primitives
  import opened Guids
  import opened Tables
  import opened Domain
  import opened Exceptions
  import opened Messaging
  import opened Stores
  import opened Http
  import PackageRepository
  import CommunicationRepository

  const FromAddress: string := "noreply@subrogationsaas.com"
  const NotGeneratedMessage: string := "Package must be generated before sending"

  /** The body of the 202 answer to a generation request. */
  datatype GenerationQueued = GenerationQueued(message: string, packageId: Guid, status: PackageStatus)

  /** The body of the 202 answer to a delivery request. */
  datatype DeliveryQueued = DeliveryQueued(message: string, packageId: Guid, communicationId: Guid)

  datatype SendPackageRequest = SendPackageRequest(
    recipients: seq<string>,
    ccRecipients: Option<seq<string>>,
    subject: string,
    body: string)

  /** `GetPackages`: the case's packages, newest version first. */
  function GetPackages(s: Store, caseId: Guid): (r: ActionResult<seq<DemandPackage>>)
    ensures r.Ok?
    ensures forall p :: p in r.value <==> p in s.packages && p.subrogationCaseId == caseId
    ensures SortedDescendingBy(r.value, PackageRepository.VersionKey)
  {
    Ok(PackageRepository.GetByCaseId(s.packages, caseId))
  }

  /** `GetPackage`: 404 for an unknown id; the document list is loaded only on request. */
  function GetPackage(s: Store, packageId: Guid, includeDocuments: bool): (r: ActionResult<DemandPackage>)
    ensures r.NotFound? <==> !HasKey(s.packages, PackageKey, packageId)
    ensures r.Ok? || r.NotFound?
    ensures r.Ok? && !includeDocuments ==> r.value in s.packages && r.value.packageId == packageId
    ensures r.Ok? && includeDocuments ==>
      && r.value.packageId == packageId
      && (forall d :: d in r.value.documents <==> d in s.documents && d.demandPackageId == packageId)
      && SortedBy(r.value.documents, PackageRepository.DisplayOrderKey)
  {
    var found := if includeDocuments then PackageRepository.GetByIdWithDocuments(s.packages, s.documents, packageId)
                 else PackageRepository.GetById(s.packages, packageId);
    match found
    case None => NotFound
    case Some(p) => Ok(p)
  }

  /** The version a new package of the case gets: one past the latest, in
      32-bit arithmetic. */
  function NextVersion(packages: seq<DemandPackage>, caseId: Guid): (v: int)
    ensures IsInt32(v)
    ensures (forall p :: p in packages ==> p.subrogationCaseId != caseId) ==> v == 1
    ensures (forall p :: p in packages && p.subrogationCaseId == caseId ==> IsInt32(p.versionNumber) && p.versionNumber < Int32Max) &&
            (exists p :: p in packages && p.subrogationCaseId == caseId) ==>
      exists q :: q in packages && q.subrogationCaseId == caseId && v == q.versionNumber + 1 &&
        forall p :: p in packages && p.subrogationCaseId == caseId ==> p.versionNumber < v
    ensures (forall p :: p in packages && p.subrogationCaseId == caseId ==> p.versionNumber <= Int32Max) &&
            (exists p :: p in packages && p.subrogationCaseId == caseId && p.versionNumber == Int32Max) ==>
      v == Int32Min
  {
    match PackageRepository.GetLatestByCaseId(packages, caseId)
    case None => WrapInt32(1)
    case Some(q) =>
      LatestPlusOne(packages, caseId, q);
      WrapInt32(q.versionNumber + 1)
  }

  /** One past the latest version of a case: strictly above every version
      when that does not overflow, and the 32-bit minimum when it does. */
  lemma LatestPlusOne(packages: seq<DemandPackage>, caseId: Guid, q: DemandPackage)
    requires q in packages && q.subrogationCaseId == caseId
    requires forall p :: p in packages && p.subrogationCaseId == caseId ==> p.versionNumber <= q.versionNumber
    ensures (forall p :: p in packages && p.subrogationCaseId == caseId ==> IsInt32(p.versionNumber) && p.versionNumber < Int32Max) ==>
      forall p :: p in packages && p.subrogationCaseId == caseId ==> p.versionNumber < WrapInt32(q.versionNumber + 1) == q.versionNumber + 1
    ensures (forall p :: p in packages && p.subrogationCaseId == caseId ==> p.versionNumber <= Int32Max) &&
            (exists p :: p in packages && p.subrogationCaseId == caseId && p.versionNumber == Int32Max) ==>
      WrapInt32(q.versionNumber + 1) == Int32Min
  {
    if (forall p :: p in packages && p.subrogationCaseId == caseId ==> p.versionNumber <= Int32Max) &&
       (exists p :: p in packages && p.subrogationCaseId == caseId && p.versionNumber == Int32Max) {
      assert q.versionNumber == Int32Max;
      IncrementWrapsAtMax();
    }
  }

  /** `CreatePackage`: the server assigns id, time, `Draft` status and the
      next version of the case; everything else comes from the body. */
  function CreatePackage(s: Store, ctx: RequestContext, package: DemandPackage): (r: Handled<DemandPackage>)
    ensures r.result.Created? || r.result == ServerError(DuplicateKey)
    ensures r.result.ServerError? <==> HasKey(s.packages, PackageKey, ctx.newId)
    ensures r.result.ServerError? ==> r.store == s
    ensures r.result.Created? ==>
      var p := r.result.value;
      && p.packageId == ctx.newId && p.createdAt == ctx.now && p.status == PackageStatus.Draft
      && p.versionNumber == NextVersion(s.packages, package.subrogationCaseId)
      && p == package.(packageId := p.packageId, createdAt := p.createdAt, status := p.status,
                       versionNumber := p.versionNumber, documents := [])
      && r.store == s.(packages := s.packages + [p])
  {
    var versioned := package.(packageId := ctx.newId, createdAt := ctx.now, status := PackageStatus.Draft,
                              versionNumber := NextVersion(s.packages, package.subrogationCaseId), documents := []);
    match PackageRepository.Create(s.packages, versioned)
    case Failure(e) => Handled(ServerError(e), s)
    case Success(t) => Handled(Created(versioned), s.(packages := t))
  }

  /** The generation request the controller queues for a package. */
  function GenerationRequest(p: DemandPackage, ctx: RequestContext): PdfGenerationMessage {
    PdfGenerationMessage(p.packageId, p.tenantId, p.subrogationCaseId, Actor(ctx), ctx.now)
  }

  /** `QueuePdfGeneration`: 404 for an unknown id; otherwise the status
      becomes `Generating` (whatever it was) and one generation request is
      queued. */
  function QueuePdfGeneration(s: Store, ctx: RequestContext, packageId: Guid): (r: Handled<GenerationQueued>)
    ensures r.result.NotFound? <==> !HasKey(s.packages, PackageKey, packageId)
    ensures r.result.NotFound? ==> r.store == s
    ensures !r.result.NotFound? ==>
      && r.result == Accepted(GenerationQueued("PDF generation queued", packageId, PackageStatus.Generating))
      && r.store.packages == PackageRepository.UpdateStatus(s.packages, packageId, PackageStatus.Generating)
      && r.store == s.(packages := r.store.packages, outbox := r.store.outbox)
      && r.store.outbox == SendMessage(s.outbox, ctx.busConfigured, PdfGenerationQueue,
                                       PdfGeneration(GenerationRequest(PackageRepository.GetById(s.packages, packageId).value, ctx)))
  {
    match PackageRepository.GetById(s.packages, packageId)
    case None => Handled(NotFound, s)
    case Some(p) =>
      var packages := PackageRepository.UpdateStatus(s.packages, packageId, PackageStatus.Generating);
      var outbox := SendMessage(s.outbox, ctx.busConfigured, PdfGenerationQueue, PdfGeneration(GenerationRequest(p, ctx)));
      Handled(Accepted(GenerationQueued("PDF generation queued", packageId, PackageStatus.Generating)),
               s.(packages := packages, outbox := outbox))
  }

  /** The audit row `SendPackage` writes before queueing the delivery. */
  function QueuedLog(p: DemandPackage, ctx: RequestContext, request: SendPackageRequest,
                     serialize: seq<string> -> string): (l: CommunicationLog)
    ensures l.communicationId == ctx.newId && l.demandPackageId == p.packageId && l.tenantId == p.tenantId
    ensures l.status == CommunicationStatus.Queued && l.action == CommunicationAction.InitialDemand
    ensures l.channel == CommunicationChannel.Email && l.fromAddress == Some(FromAddress)
    ensures l.recipientsJson == serialize(request.recipients)
    ensures l.ccRecipientsJson.Some? <==> request.ccRecipients.Some?
    ensures l.sentAt.None? && l.deliveredAt.None? && l.deliveryTrackingId.None? && l.errorMessage.None?
  {
    CommunicationLog(
      ctx.newId, p.packageId, p.tenantId, CommunicationAction.InitialDemand, CommunicationChannel.Email,
      serialize(request.recipients),
      if request.ccRecipients.Some? then Some(serialize(request.ccRecipients.value)) else None,
      Some(request.subject), Some(request.body), Some(FromAddress), CommunicationStatus.Queued,
      None, None, None, None, Actor(ctx), ctx.now)
  }

  /** The delivery request the controller queues for a package. */
  function DeliveryRequest(p: DemandPackage, ctx: RequestContext, request: SendPackageRequest): (m: EmailDeliveryMessage)
    ensures m.communicationId == ctx.newId && m.packageId == p.packageId && m.tenantId == p.tenantId
    ensures m.recipients == request.recipients && m.ccRecipients == request.ccRecipients
    ensures m.subject == request.subject && m.body == request.body
    ensures m.pdfBlobPath == p.generatedPdfPath
  {
    EmailDeliveryMessage(ctx.newId, p.packageId, p.tenantId, request.recipients, request.ccRecipients,
                         request.subject, request.body, p.generatedPdfPath, ctx.now)
  }

  /** `SendPackage`: 404 for an unknown id, 400 unless the package is
      `Generated`; otherwise a `Queued` log is written and one delivery
      request, carrying the package's PDF path, is queued. */
  function SendPackage(s: Store, ctx: RequestContext, packageId: Guid, request: SendPackageRequest,
                       serialize: seq<string> -> string): (r: Handled<DeliveryQueued>)
    ensures r.result.NotFound? <==> !HasKey(s.packages, PackageKey, packageId)
    ensures r.result.BadRequest? <==>
      HasKey(s.packages, PackageKey, packageId) && PackageRepository.GetById(s.packages, packageId).value.status != PackageStatus.Generated
    ensures r.result.NotFound? || r.result.BadRequest? || r.result.ServerError? || r.result.Accepted?
    ensures r.result.BadRequest? ==> r.result.message == NotGeneratedMessage
    ensures r.result.NotFound? || r.result.BadRequest? || r.result.ServerError? ==> r.store == s
    ensures r.result.ServerError? <==>
      && HasKey(s.packages, PackageKey, packageId)
      && PackageRepository.GetById(s.packages, packageId).value.status == PackageStatus.Generated
      && HasKey(s.logs, LogKey, ctx.newId)
    ensures r.result.ServerError? ==> r.result.error == DuplicateKey
    ensures r.store.packages == s.packages
    ensures r.result.Accepted? ==>
      var p := PackageRepository.GetById(s.packages, packageId).value;
      && p.status == PackageStatus.Generated
      && r.result.value == DeliveryQueued("Email delivery queued", packageId, ctx.newId)
      && r.store == s.(logs := s.logs + [QueuedLog(p, ctx, request, serialize)],
                       outbox := SendMessage(s.outbox, ctx.busConfigured, EmailDeliveryQueue,
                                             EmailDelivery(DeliveryRequest(p, ctx, request))))
  {
    match PackageRepository.GetById(s.packages, packageId)
    case None => Handled(NotFound, s)
    case Some(p) =>
      if p.status != PackageStatus.Generated then Handled(BadRequest(NotGeneratedMessage), s)
      else
        match CommunicationRepository.Create(s.logs, QueuedLog(p, ctx, request, serialize))
        case Failure(e) => Handled(ServerError(e), s)
        case Success(logs) =>
          var outbox := SendMessage(s.outbox, ctx.busConfigured, EmailDeliveryQueue, EmailDelivery(DeliveryRequest(p, ctx, request)));
          Handled(Accepted(DeliveryQueued("Email delivery queued", packageId, ctx.newId)), s.(logs := logs, outbox := outbox))
  }

  /** `AddDocument`: the server assigns id, package and upload time; the
      insert fails on a taken id or an unknown package. */
  function AddDocument(s: Store, ctx: RequestContext, packageId: Guid, document: PackageDocument): (r: Handled<PackageDocument>)
    ensures r.result.Created? || r.result.ServerError?
    ensures r.result.Created? <==> HasKey(s.packages, PackageKey, packageId) && !HasKey(s.documents, DocumentKey, ctx.newId)
    ensures r.result.ServerError? ==> r.store == s
    ensures r.result.Created? ==>
      var d := r.result.value;
      && d == document.(packageDocumentId := ctx.newId, demandPackageId := packageId, uploadedAt := ctx.now)
      && r.store == s.(documents := s.documents + [d])
  {
    var d := document.(packageDocumentId := ctx.newId, demandPackageId := packageId, uploadedAt := ctx.now);
    match PackageRepository.AddDocument(s.packages, s.documents, d)
    case Failure(e) => Handled(ServerError(e), s)
    case Success(t) => Handled(Created(d), s.(documents := t))
  }
}

=== FILE: pdf_worker.dfy ===
/** `GeneratePDFFunction`: renders a queued package, stores the PDF, and
    records path, hash, size and page count on the package. The renderer and
    SHA-256 are parameters; `fault` says which foreign call, if any, throws. */
module PdfWorker {

  import opened Wrappers
  import opened Primitives
  import opened Guids
  import opened Tables
  import opened Domain
  import opened Exceptions
  import opened Messaging
  import opened BlobStorage
  import opened Stores
  import Hex
  import PackageRepository
  import CaseRepository

  type Digest = s: seq<uint8> | |s| == 32 witness seq(32, _ => 0)

  /** The column width of `PdfHash`. */
  const PdfHashMaxLength: nat := 64
  const InvalidMessage: string := "Invalid message format"

  datatype Fault = NoFault | RendererFault | StorageFault | DatabaseFault

  /** `CalculateHash`: SHA-256 of the bytes, in lower-case hexadecimal. */
  function CalculateHash(sha256: seq<uint8> -> Digest, data: seq<uint8>): (r: string)
    ensures r == Hex.EncodeLower(sha256(data))
    ensures |r| == PdfHashMaxLength
    ensures Hex.Decode(r) == Some(sha256(data))
  {
    Hex.DecodeEncodeLower(sha256(data));
    Hex.DashedUpperToLower(sha256(data))
  }

  /** Two hashes agree exactly when the digests do. */
  lemma HashesAgreeIffDigestsAgree(sha256: seq<uint8> -> Digest, a: seq<uint8>, b: seq<uint8>)
    ensures CalculateHash(sha256, a) == CalculateHash(sha256, b) <==> sha256(a) == sha256(b)
  {
    Hex.EncodeLowerInjective(sha256(a), sha256(b));
  }

  function PackageNotFound(packageId: Guid): string {
    "Package " + ToString(packageId) + " not found"
  }

  function CaseNotFound(caseId: Guid): string {
    "Case " + ToString(caseId) + " not found"
  }

  /** The blob path a generation request writes to. */
  function PdfPath(m: PdfGenerationMessage): string {
    BlobPath(m.tenantId, m.packageId, PackageFileName)
  }

  /** Whether the inputs a run looks up are present: the package, and the case it belongs to. */
  predicate Resolvable(s: Store, m: PdfGenerationMessage) {
    && HasKey(s.packages, PackageKey, m.packageId)
    && HasKey(s.cases, CaseKey, PackageRepository.GetById(s.packages, m.packageId).value.subrogationCaseId)
  }

  /** The package (with its documents) and the case the renderer receives. */
  function RenderInput(s: Store, m: PdfGenerationMessage): (r: (SubrogationCase, DemandPackage))
    requires Resolvable(s, m)
    ensures r.1.packageId == m.packageId && r.0.caseId == r.1.subrogationCaseId
    ensures r.1.(documents := []) == PackageRepository.GetById(s.packages, m.packageId).value.(documents := [])
    ensures forall d :: d in r.1.documents <==> d in s.documents && d.demandPackageId == m.packageId
    ensures multiset(r.1.documents) == multiset(Filter(s.documents, PackageRepository.OfPackage(m.packageId)))
    ensures SortedBy(r.1.documents, PackageRepository.DisplayOrderKey)
  {
    var p := PackageRepository.GetByIdWithDocuments(s.packages, s.documents, m.packageId).value;
    (CaseRepository.GetById(s.cases, p.subrogationCaseId).value, p)
  }

  /** The two lookups before rendering: the package with its documents,
      then its case. */
  function Load(s: Store, m: PdfGenerationMessage): (r: Result<(SubrogationCase, DemandPackage), Exception>)
    ensures r.Success? <==> Resolvable(s, m)
    ensures r.Success? ==> r.value == RenderInput(s, m)
    ensures !HasKey(s.packages, PackageKey, m.packageId) ==> r == Failure(InvalidOperation(PackageNotFound(m.packageId)))
    ensures HasKey(s.packages, PackageKey, m.packageId) && !Resolvable(s, m) ==>
      r == Failure(InvalidOperation(CaseNotFound(PackageRepository.GetById(s.packages, m.packageId).value.subrogationCaseId)))
  {
    match PackageRepository.GetByIdWithDocuments(s.packages, s.documents, m.packageId)
    case None => Failure(InvalidOperation(PackageNotFound(m.packageId)))
    case Some(p) =>
      match CaseRepository.GetById(s.cases, p.subrogationCaseId)
      case None => Failure(InvalidOperation(CaseNotFound(p.subrogationCaseId)))
      case Some(c) => Success((c, p))
  }

  /** The rendered bytes of a resolvable request. */
  function Rendered(s: Store, m: PdfGenerationMessage, render: (SubrogationCase, DemandPackage) -> seq<uint8>): seq<uint8>
    requires Resolvable(s, m)
  {
    render(RenderInput(s, m).0, RenderInput(s, m).1)
  }

  /** `Run`: a message whose body is the JSON literal `null` (the `None`
      input), an unknown package or an unknown case is an
      `InvalidOperationException`; otherwise the PDF is rendered,
      uploaded to `{tenantId}/{packageId}/package.pdf`, and the package row
      records path, hash, size, one page and `Generated`. Every exception is
      rethrown for redelivery; a database failure after the upload leaves the
      uploaded blob behind. */
  function Run(s: Store, message: Option<PdfGenerationMessage>, render: (SubrogationCase, DemandPackage) -> seq<uint8>,
               sha256: seq<uint8> -> Digest, fault: Fault): (r: WorkerRun)
    ensures message.None? ==> r == WorkerRun(s, Some(InvalidOperation(InvalidMessage)))
    ensures message.Some? && !HasKey(s.packages, PackageKey, message.value.packageId) ==>
      r == WorkerRun(s, Some(InvalidOperation(PackageNotFound(message.value.packageId))))
    ensures message.Some? && HasKey(s.packages, PackageKey, message.value.packageId) && !Resolvable(s, message.value) ==>
      r == WorkerRun(s, Some(InvalidOperation(CaseNotFound(PackageRepository.GetById(s.packages, message.value.packageId).value.subrogationCaseId))))
    ensures r.error.None? ==> message.Some? && Resolvable(s, message.value) && fault == NoFault
    ensures message.Some? && Resolvable(s, message.value) && fault == NoFault ==> r.error.None?
    ensures r.store.cases == s.cases && r.store.documents == s.documents && r.store.logs == s.logs && r.store.outbox == s.outbox
    ensures r.error.Some? ==> r.store.packages == s.packages
    ensures r.error.Some? && fault != DatabaseFault ==> r.store.blobs == s.blobs
    ensures r.error.None? ==>
      var m := message.value;
      && DownloadPackage(r.store.blobs, PdfPath(m)) == Success(Rendered(s, m, render))
      && OnlyKeyChanged(s.blobs, r.store.blobs, BlobKey(PackagesContainer, PdfPath(m)))
      && r.store.packages == PackageRepository.UpdateGeneratedPdf(s.packages, m.packageId, PdfPath(m),
           CalculateHash(sha256, Rendered(s, m, render)), |Rendered(s, m, render)|, 1)
  {
    match message
    case None => WorkerRun(s, Some(InvalidOperation(InvalidMessage)))
    case Some(m) =>
      match Load(s, m)
      case Failure(e) => WorkerRun(s, Some(e))
      case Success(input) =>
        if fault.RendererFault? then WorkerRun(s, Some(Infrastructure("renderer")))
        else
          var bytes := render(input.0, input.1);
          if fault.StorageFault? then WorkerRun(s, Some(Infrastructure("blob storage")))
          else
            var upload := UploadPackage(s.blobs, m.tenantId, m.packageId, bytes);
            var uploaded := s.(blobs := upload.blobs);
            if fault.DatabaseFault? then WorkerRun(uploaded, Some(Infrastructure("database")))
            else
              var hash := CalculateHash(sha256, bytes);
              WorkerRun(uploaded.(packages := PackageRepository.UpdateGeneratedPdf(s.packages, m.packageId, upload.path, hash, |bytes|, 1)), None)
  }

  /** After a successful run the package reads back as generated, pointing
      at the uploaded PDF, with a hash of exactly the column's width. */
  lemma RunRecordsArtifact(s: Store, m: PdfGenerationMessage, render: (SubrogationCase, DemandPackage) -> seq<uint8>,
                           sha256: seq<uint8> -> Digest)
    requires Resolvable(s, m)
    ensures
      var r := Run(s, Some(m), render, sha256, NoFault);
      var p := PackageRepository.GetById(r.store.packages, m.packageId);
      && p.Some?
      && p.value.status == PackageStatus.Generated
      && p.value.generatedPdfPath == Some(PdfPath(m))
      && DownloadPackage(r.store.blobs, p.value.generatedPdfPath.value).Success?
      && p.value.pdfHash.Some? && |p.value.pdfHash.value| == PdfHashMaxLength
      && p.value.pageCount == 1
  {
    var bytes := Rendered(s, m, render);
    var hash := CalculateHash(sha256, bytes);
    FindAfterUpdate(s.packages, PackageKey, m.packageId, PackageRepository.SetGeneratedPdf(PdfPath(m), hash, |bytes|, 1));
  }

  /** Redelivery after a database failure: the retry ends where a first,
      clean run would have, the stray blob being overwritten with the same
      content. */
  lemma RetryAfterDatabaseFault(s: Store, m: PdfGenerationMessage, render: (SubrogationCase, DemandPackage) -> seq<uint8>,
                                sha256: seq<uint8> -> Digest)
    ensures Run(Run(s, Some(m), render, sha256, DatabaseFault).store, Some(m), render, sha256, NoFault) ==
            Run(s, Some(m), render, sha256, NoFault)
  {
    var failed := Run(s, Some(m), render, sha256, DatabaseFault).store;
    if Resolvable(s, m) {
      var bytes := Rendered(s, m, render);
      var key := BlobKey(PackagesContainer, PdfPath(m));
      assert failed == s.(blobs := s.blobs[key := Blob(bytes, PdfContentType)]);
      assert failed.blobs[key := Blob(bytes, PdfContentType)] == s.blobs[key := Blob(bytes, PdfContentType)];
    }
  }

  /** A successful run keeps the request resolvable: the package and its
      case are still there. */
  lemma RunKeepsResolvable(s: Store, m: PdfGenerationMessage, render: (SubrogationCase, DemandPackage) -> seq<uint8>,
                           sha256: seq<uint8> -> Digest)
    requires Resolvable(s, m)
    ensures Resolvable(Run(s, Some(m), render, sha256, NoFault).store, m)
  {
    var once := Run(s, Some(m), render, sha256, NoFault).store;
    var f := PackageRepository.SetGeneratedPdf(PdfPath(m), CalculateHash(sha256, Rendered(s, m, render)), |Rendered(s, m, render)|, 1);
    FindAfterUpdate(s.packages, PackageKey, m.packageId, f);
  }

  /** A clean run adds exactly the package's PDF key to the blob store. */
  lemma RunAddsPdfKey(s: Store, m: PdfGenerationMessage, render: (SubrogationCase, DemandPackage) -> seq<uint8>,
                      sha256: seq<uint8> -> Digest)
    requires Resolvable(s, m)
    ensures
      var r := Run(s, Some(m), render, sha256, NoFault);
      && r.error.None?
      && r.store.blobs.Keys == s.blobs.Keys + {BlobKey(PackagesContainer, PdfPath(m))}
  {
    var r := Run(s, Some(m), render, sha256, NoFault);
    var key := BlobKey(PackagesContainer, PdfPath(m));
    assert key in r.store.blobs;
    assert OnlyKeyChanged(s.blobs, r.store.blobs, key);
  }

  /** Redelivery after success writes the same blob key again: no new blob
      appears, and the package keeps pointing at the same path. */
  lemma RedeliveryReusesBlobPath(s: Store, m: PdfGenerationMessage, render: (SubrogationCase, DemandPackage) -> seq<uint8>,
                                 sha256: seq<uint8> -> Digest)
    requires Resolvable(s, m)
    ensures
      var once := Run(s, Some(m), render, sha256, NoFault);
      var twice := Run(once.store, Some(m), render, sha256, NoFault);
      && once.error.None? && twice.error.None?
      && twice.store.blobs.Keys == once.store.blobs.Keys
      && PackageRepository.GetById(twice.store.packages, m.packageId).value.generatedPdfPath == Some(PdfPath(m))
  {
    var once := Run(s, Some(m), render, sha256, NoFault);
    RunAddsPdfKey(s, m, render, sha256);
    RunKeepsResolvable(s, m, render, sha256);
    RunAddsPdfKey(once.store, m, render, sha256);
    RunRecordsArtifact(once.store, m, render, sha256);
  }
}

=== FILE: pipeline.dfy ===
/** The pipeline as a whole: invariants of the shared store that every
    state-changing action of the API and of the two workers preserves. */
module Pipeline {

  import opened Wrappers
  import opened Primitives
  import opened Guids
  import opened Tables
  import opened Domain
  import opened Exceptions
  import opened Messaging
  import opened Stores
  import opened Http
  import PackageRepository
  import CommunicationRepository
  import PackagesController
  import CasesController
  import PdfWorker
  import EmailWorker
  import EmailService

  /** No code path ever sets a package to `Sent` or `Failed`. */
  predicate NoSentOrFailed(s: Store) {
    forall p :: p in s.packages ==> p.status != PackageStatus.Sent && p.status != PackageStatus.Failed
  }

  /** A log that says it was sent (delivered) carries the time it was. */
  predicate LogsStamped(logs: seq<CommunicationLog>) {
    forall l :: l in logs ==>
      && (l.status == CommunicationStatus.Sent ==> l.sentAt.Some?)
      && (l.status == CommunicationStatus.Delivered ==> l.deliveredAt.Some?)
  }

  /** Every queued message went to its own queue and names a row that exists. */
  predicate OutboxResolves(s: Store) {
    forall e :: e in s.outbox ==>
      && (e.payload.PdfGeneration? ==> e.queueName == PdfGenerationQueue && HasKey(s.packages, PackageKey, e.payload.pdf.packageId))
      && (e.payload.EmailDelivery? ==> e.queueName == EmailDeliveryQueue && HasKey(s.logs, LogKey, e.payload.email.communicationId))
  }

  predicate Inv(s: Store) {
    Valid(s) && NoSentOrFailed(s) && LogsStamped(s.logs) && OutboxResolves(s)
  }

  /** Packages are never removed, and a package that has left `Draft` never
      returns to it. */
  ghost predicate MovesForward(before: seq<DemandPackage>, after: seq<DemandPackage>) {
    forall id :: HasKey(before, PackageKey, id) ==>
      && HasKey(after, PackageKey, id)
      && (PackageRepository.GetById(before, id).value.status != PackageStatus.Draft ==>
            PackageRepository.GetById(after, id).value.status != PackageStatus.Draft)
  }

  /** Row-by-row evidence for `MovesForward`. */
  lemma IndexwiseMovesForward(before: seq<DemandPackage>, after: seq<DemandPackage>)
    requires UniqueKeys(before, PackageKey) && UniqueKeys(after, PackageKey)
    requires |after| >= |before|
    requires forall i :: 0 <= i < |before| ==> after[i].packageId == before[i].packageId
    requires forall i :: 0 <= i < |before| && before[i].status != PackageStatus.Draft ==> after[i].status != PackageStatus.Draft
    ensures MovesForward(before, after)
  {
    forall id | HasKey(before, PackageKey, id)
      ensures HasKey(after, PackageKey, id)
      ensures PackageRepository.GetById(before, id).value.status != PackageStatus.Draft ==>
              PackageRepository.GetById(after, id).value.status != PackageStatus.Draft
    {
      var i :| 0 <= i < |before| && before[i].packageId == id;
      FindUnique(before, PackageKey, id, i);
      assert after[i].packageId == id;
      FindUnique(after, PackageKey, id, i);
    }
  }

  /** Keys of all four tables survive the step. */
  ghost predicate KeysKept(before: Store, after: Store) {
    && (forall k :: HasKey(before.packages, PackageKey, k) ==> HasKey(after.packages, PackageKey, k))
    && (forall k :: HasKey(before.logs, LogKey, k) ==> HasKey(after.logs, LogKey, k))
  }

  /** An outbox that only grows by resolvable messages stays resolvable when
      no key is lost. */
  lemma OutboxStep(before: Store, after: Store, added: seq<Envelope>)
    requires OutboxResolves(before) && KeysKept(before, after)
    requires after.outbox == before.outbox + added
    requires forall e :: e in added ==>
      && (e.payload.PdfGeneration? ==> e.queueName == PdfGenerationQueue && HasKey(after.packages, PackageKey, e.payload.pdf.packageId))
      && (e.payload.EmailDelivery? ==> e.queueName == EmailDeliveryQueue && HasKey(after.logs, LogKey, e.payload.email.communicationId))
    ensures OutboxResolves(after)
  {
  }

  /** Inserting a fresh draft package keeps the invariant and moves forward. */
  lemma AppendPackage(s: Store, p: DemandPackage)
    requires Inv(s)
    requires !HasKey(s.packages, PackageKey, p.packageId)
    requires p.documents == [] && p.status == PackageStatus.Draft
    ensures Inv(s.(packages := s.packages + [p]))
    ensures MovesForward(s.packages, s.packages + [p])
  {
    var t := s.packages + [p];
    var inserted := Insert(s.packages, PackageKey, p);
    assert inserted == Some(t);
    AppendKeepsKeys(s.packages, p, PackageKey);
    OutboxStep(s, s.(packages := t), []);
    IndexwiseMovesForward(s.packages, t);
  }

  /** Rewriting package rows in place, keeping keys and documents and only
      ever moving a status to `Generating` or `Generated`, keeps the
      invariant and moves forward. */
  lemma RewritePackages(s: Store, t: seq<DemandPackage>)
    requires Inv(s)
    requires |t| == |s.packages|
    requires forall i :: 0 <= i < |t| ==> t[i].packageId == s.packages[i].packageId && t[i].documents == s.packages[i].documents
    requires forall i :: 0 <= i < |t| ==>
      t[i].status == s.packages[i].status || t[i].status == PackageStatus.Generating || t[i].status == PackageStatus.Generated
    ensures Inv(s.(packages := t))
    ensures MovesForward(s.packages, t)
  {
    SameKeys(s.packages, t, PackageKey);
    forall p | p in t
      ensures p.documents == [] && p.status != PackageStatus.Sent && p.status != PackageStatus.Failed
    {
      var i :| 0 <= i < |t| && t[i] == p;
      assert s.packages[i] in s.packages;
    }
    OutboxStep(s, s.(packages := t), []);
    IndexwiseMovesForward(s.packages, t);
  }

  lemma CreatePackagePreserves(s: Store, ctx: RequestContext, package: DemandPackage)
    requires Inv(s)
    ensures Inv(PackagesController.CreatePackage(s, ctx, package).store)
    ensures MovesForward(s.packages, PackagesController.CreatePackage(s, ctx, package).store.packages)
  {
    var r := PackagesController.CreatePackage(s, ctx, package);
    if r.result.Created? {
      AppendPackage(s, r.result.value);
    } else {
      IndexwiseMovesForward(s.packages, s.packages);
    }
  }

  lemma QueuePdfGenerationPreserves(s: Store, ctx: RequestContext, packageId: Guid)
    requires Inv(s)
    ensures Inv(PackagesController.QueuePdfGeneration(s, ctx, packageId).store)
    ensures MovesForward(s.packages, PackagesController.QueuePdfGeneration(s, ctx, packageId).store.packages)
  {
    var r := PackagesController.QueuePdfGeneration(s, ctx, packageId);
    if r.result.NotFound? {
      IndexwiseMovesForward(s.packages, s.packages);
    } else {
      var t := r.store.packages;
      RewritePackages(s, t);
      var s1 := s.(packages := t);
      assert HasKey(t, PackageKey, packageId);
      var added := if ctx.busConfigured then [r.store.outbox[|s.outbox|]] else [];
      assert r.store.outbox == s1.outbox + added;
      OutboxStep(s1, r.store, added);
    }
  }

  /** Inserting a fresh, still queued log keeps the invariant. */
  lemma AppendLog(s: Store, log: CommunicationLog)
    requires Inv(s)
    requires !HasKey(s.logs, LogKey, log.communicationId)
    requires log.status == CommunicationStatus.Queued
    ensures Inv(s.(logs := s.logs + [log]))
    ensures HasKey(s.logs + [log], LogKey, log.communicationId)
  {
    var inserted := Insert(s.logs, LogKey, log);
    assert inserted == Some(s.logs + [log]);
    AppendKeepsKeys(s.logs, log, LogKey);
    OutboxStep(s, s.(logs := s.logs + [log]), []);
  }

  lemma SendPackagePreserves(s: Store, ctx: RequestContext, packageId: Guid, request: PackagesController.SendPackageRequest,
                             serialize: seq<string> -> string)
    requires Inv(s)
    ensures Inv(PackagesController.SendPackage(s, ctx, packageId, request, serialize).store)
    ensures PackagesController.SendPackage(s, ctx, packageId, request, serialize).store.packages == s.packages
  {
    var r := PackagesController.SendPackage(s, ctx, packageId, request, serialize);
    if r.result.Accepted? {
      var p := PackageRepository.GetById(s.packages, packageId).value;
      var log := PackagesController.QueuedLog(p, ctx, request, serialize);
      AppendLog(s, log);
      var s1 := s.(logs := s.logs + [log]);
      var added := if ctx.busConfigured then [r.store.outbox[|s.outbox|]] else [];
      assert r.store.outbox == s1.outbox + added;
      OutboxStep(s1, r.store, added);
    }
  }

  lemma AddDocumentPreserves(s: Store, ctx: RequestContext, packageId: Guid, document: PackageDocument)
    requires Inv(s)
    ensures Inv(PackagesController.AddDocument(s, ctx, packageId, document).store)
  {
    var r := PackagesController.AddDocument(s, ctx, packageId, document);
    if r.result.Created? {
      var added := PackageRepository.AddDocument(s.packages, s.documents, r.result.value);
      assert added.Success? && added.value == r.store.documents;
      assert UniqueKeys(r.store.documents, DocumentKey);
    }
  }

  lemma CreateCasePreserves(s: Store, ctx: RequestContext, subrogationCase: SubrogationCase)
    requires Inv(s)
    ensures Inv(CasesController.CreateCase(s, ctx, subrogationCase).store)
  {
  }

  lemma UpdateCasePreserves(s: Store, ctx: RequestContext, caseId: Guid, subrogationCase: SubrogationCase)
    requires Inv(s)
    ensures Inv(CasesController.UpdateCase(s, ctx, caseId, subrogationCase).store)
  {
  }

  /** Recording a generated PDF keeps the invariant and moves forward. */
  lemma RecordArtifact(s: Store, packageId: Guid, pdfPath: string, pdfHash: string, sizeBytes: int, pageCount: int)
    requires Inv(s)
    ensures Inv(s.(packages := PackageRepository.UpdateGeneratedPdf(s.packages, packageId, pdfPath, pdfHash, sizeBytes, pageCount)))
    ensures MovesForward(s.packages, PackageRepository.UpdateGeneratedPdf(s.packages, packageId, pdfPath, pdfHash, sizeBytes, pageCount))
  {
    var t := PackageRepository.UpdateGeneratedPdf(s.packages, packageId, pdfPath, pdfHash, sizeBytes, pageCount);
    assert forall i :: 0 <= i < |t| ==> PackageRepository.OnlyArtifactFieldsDiffer(s.packages[i], t[i]);
    RewritePackages(s, t);
  }

  lemma PdfWorkerPreserves(s: Store, message: Option<PdfGenerationMessage>, render: (SubrogationCase, DemandPackage) -> seq<uint8>,
                           sha256: seq<uint8> -> PdfWorker.Digest, fault: PdfWorker.Fault)
    requires Inv(s)
    ensures Inv(PdfWorker.Run(s, message, render, sha256, fault).store)
    ensures MovesForward(s.packages, PdfWorker.Run(s, message, render, sha256, fault).store.packages)
  {
    var r := PdfWorker.Run(s, message, render, sha256, fault);
    if r.error.None? {
      var m := message.value;
      var bytes := PdfWorker.Rendered(s, m, render);
      RecordArtifact(s, m.packageId, PdfWorker.PdfPath(m), PdfWorker.CalculateHash(sha256, bytes), |bytes|, 1);
    } else {
      IndexwiseMovesForward(s.packages, s.packages);
    }
  }

  /** A saved status change keeps keys and time stamps consistent. */
  lemma LogStatusStep(logs: seq<CommunicationLog>, communicationId: Guid, status: CommunicationStatus,
                      externalId: Option<string>, now: Time)
    requires LogsStamped(logs)
    requires HasKey(logs, LogKey, communicationId)
    ensures
      var r := CommunicationRepository.UpdateStatus(logs, communicationId, status, externalId, now);
      && r.Success?
      && LogsStamped(r.value)
      && |r.value| == |logs|
      && forall i :: 0 <= i < |logs| ==> r.value[i].communicationId == logs[i].communicationId
  {
    var r := CommunicationRepository.UpdateStatus(logs, communicationId, status, externalId, now).value;
    forall l | l in r
      ensures l.status == CommunicationStatus.Sent ==> l.sentAt.Some?
      ensures l.status == CommunicationStatus.Delivered ==> l.deliveredAt.Some?
    {
      var i :| 0 <= i < |r| && r[i] == l;
      assert logs[i] in logs;
    }
    forall i | 0 <= i < |logs|
      ensures r[i].communicationId == logs[i].communicationId
    {
      if logs[i].communicationId == communicationId {
        assert CommunicationRepository.StatusApplied(logs[i], r[i], status, externalId, now);
      }
    }
  }

  /** A saved error keeps keys and time stamps consistent. */
  lemma LogErrorStep(logs: seq<CommunicationLog>, communicationId: Guid, errorMessage: string)
    requires LogsStamped(logs)
    ensures
      var r := CommunicationRepository.UpdateError(logs, communicationId, errorMessage);
      && LogsStamped(r)
      && |r| == |logs|
      && forall i :: 0 <= i < |logs| ==> r[i].communicationId == logs[i].communicationId
  {
    var r := CommunicationRepository.UpdateError(logs, communicationId, errorMessage);
    forall l | l in r
      ensures l.status == CommunicationStatus.Sent ==> l.sentAt.Some?
      ensures l.status == CommunicationStatus.Delivered ==> l.deliveredAt.Some?
    {
      var i :| 0 <= i < |r| && r[i] == l;
      assert logs[i] in logs;
    }
  }

  lemma EmailWorkerPreserves(s: Store, message: Option<EmailDeliveryMessage>,
                             emailService: EmailService.EmailRequest -> EmailService.EmailResponse, now: Time)
    requires Inv(s)
    ensures Inv(EmailWorker.Run(s, message, emailService, now).store)
    ensures EmailWorker.Run(s, message, emailService, now).store.packages == s.packages
  {
    var r := EmailWorker.Run(s, message, emailService, now);
    if message.Some? && HasKey(s.logs, LogKey, message.value.communicationId) {
      var m := message.value;
      LogStatusStep(s.logs, m.communicationId, CommunicationStatus.Sending, None, now);
      var sending := CommunicationRepository.UpdateStatus(s.logs, m.communicationId, CommunicationStatus.Sending, None, now).value;
      SameKeys(s.logs, sending, LogKey);
      assert HasKey(sending, LogKey, m.communicationId);
      LogStatusStep(sending, m.communicationId, CommunicationStatus.Sent, None, now);
      match EmailWorker.Attachments(s.blobs, m)
      case Failure(_) =>
        OutboxStep(s, r.store, []);
      case Success(attachments) =>
        var response := emailService(EmailWorker.Request(m, attachments));
        if response.success {
          LogStatusStep(sending, m.communicationId, CommunicationStatus.Sent, response.messageId, now);
          var sent := CommunicationRepository.UpdateStatus(sending, m.communicationId, CommunicationStatus.Sent, response.messageId, now).value;
          SameKeys(sending, sent, LogKey);
        } else {
          var failed := CommunicationRepository.UpdateError(sending, m.communicationId, response.errorMessage.GetOr(EmailWorker.UnknownError));
          LogErrorStep(sending, m.communicationId, response.errorMessage.GetOr(EmailWorker.UnknownError));
          SameKeys(sending, failed, LogKey);
        }
        OutboxStep(s, r.store, []);
    }
  }

  /** Queueing generation leaves the package and its case where the worker
      will look for them. */
  lemma QueuedIsResolvable(s: Store, ctx: RequestContext, packageId: Guid)
    requires UniqueKeys(s.packages, PackageKey)
    requires HasKey(s.packages, PackageKey, packageId)
    requires HasKey(s.cases, CaseKey, PackageRepository.GetById(s.packages, packageId).value.subrogationCaseId)
    ensures
      var queued := PackagesController.QueuePdfGeneration(s, ctx, packageId);
      var m := PackagesController.GenerationRequest(PackageRepository.GetById(s.packages, packageId).value, ctx);
      && m.packageId == packageId
      && PdfWorker.Resolvable(queued.store, m)
      && queued.store.logs == s.logs
  {
    FindAfterUpdate(s.packages, PackageKey, packageId, PackageRepository.SetStatus(PackageStatus.Generating));
  }

  /** A clean worker run leaves the package ready to send. */
  lemma GeneratedIsSendable(s: Store, m: PdfGenerationMessage,
                            render: (SubrogationCase, DemandPackage) -> seq<uint8>, sha256: seq<uint8> -> PdfWorker.Digest,
                            sendCtx: RequestContext, request: PackagesController.SendPackageRequest, serialize: seq<string> -> string)
    requires PdfWorker.Resolvable(s, m)
    requires !HasKey(s.logs, LogKey, sendCtx.newId)
    ensures
      var generated := PdfWorker.Run(s, Some(m), render, sha256, PdfWorker.NoFault);
      && generated.error.None?
      && PackagesController.SendPackage(generated.store, sendCtx, m.packageId, request, serialize).result.Accepted?
  {
    PdfWorker.RunRecordsArtifact(s, m, render, sha256);
  }

  /** The intended sequence: queueing generation for a package whose case
      exists, running the worker on the request just queued, then asking to
      send it is accepted, the log id being fresh. */
  lemma GenerateThenSend(s: Store, ctx: RequestContext, packageId: Guid,
                         render: (SubrogationCase, DemandPackage) -> seq<uint8>, sha256: seq<uint8> -> PdfWorker.Digest,
                         sendCtx: RequestContext, request: PackagesController.SendPackageRequest, serialize: seq<string> -> string)
    requires Inv(s)
    requires HasKey(s.packages, PackageKey, packageId)
    requires HasKey(s.cases, CaseKey, PackageRepository.GetById(s.packages, packageId).value.subrogationCaseId)
    requires !HasKey(s.logs, LogKey, sendCtx.newId)
    ensures
      var queued := PackagesController.QueuePdfGeneration(s, ctx, packageId);
      var m := PackagesController.GenerationRequest(PackageRepository.GetById(s.packages, packageId).value, ctx);
      var generated := PdfWorker.Run(queued.store, Some(m), render, sha256, PdfWorker.NoFault);
      && generated.error.None?
      && PackagesController.SendPackage(generated.store, sendCtx, packageId, request, serialize).result.Accepted?
  {
    var queued := PackagesController.QueuePdfGeneration(s, ctx, packageId);
    var m := PackagesController.GenerationRequest(PackageRepository.GetById(s.packages, packageId).value, ctx);
    QueuedIsResolvable(s, ctx, packageId);
    GeneratedIsSendable(queued.store, m, render, sha256, sendCtx, request, serialize);
  }
}

=== FILE: primitives.dfy ===
/** Machine-level value types of the .NET program: bytes, 32-bit integers,
    timestamps, and the ASCII case mapping the string helpers need. */
module Primitives {

  import opened Wrappers

  /** A byte (`System.Byte`). */
  type uint8 = b: int | 0 <= b < 256

  const Int32Min: int := -0x8000_0000
  const Int32Max: int := 0x7FFF_FFFF

  /** A timestamp (`DateTime`), as ticks; the model never does calendar arithmetic. */
  type Time = int

  predicate IsInt32(x: int) {
    Int32Min <= x <= Int32Max
  }

  /** Unchecked C# `int` arithmetic: the result wraps into [Int32Min, Int32Max]. */
  function WrapInt32(x: int): (r: int)
    ensures IsInt32(r)
    ensures IsInt32(x) ==> r == x
    ensures (r - x) % 0x1_0000_0000 == 0
  {
    (x - Int32Min) % 0x1_0000_0000 + Int32Min
  }

  /** Incrementing the largest `int` wraps to the smallest. */
  lemma IncrementWrapsAtMax()
    ensures WrapInt32(Int32Max + 1) == Int32Min
  {
  }

  predicate IsAsciiUpper(c: char) {
    'A' <= c <= 'Z'
  }

  /** Lower-cases an ASCII letter and leaves every other character alone. */
  function ToLowerAscii(c: char): (r: char)
    ensures IsAsciiUpper(c) ==> r as int == c as int + 32
    ensures !IsAsciiUpper(c) ==> r == c
  {
    if IsAsciiUpper(c) then (c as int + 32) as char else c
  }

  /** Character-wise ASCII lower-casing of a string. */
  function ToLowerAsciiString(s: string): (r: string)
    ensures |r| == |s|
    ensures forall i :: 0 <= i < |s| ==> r[i] == ToLowerAscii(s[i])
  {
    seq(|s|, i requires 0 <= i < |s| => ToLowerAscii(s[i]))
  }

  /** Ordinal case-insensitive equality, restricted to ASCII case folding. */
  predicate EqualsIgnoreCase(a: string, b: string) {
    ToLowerAsciiString(a) == ToLowerAsciiString(b)
  }

  /** `string.IsNullOrEmpty`. */
  predicate IsNullOrEmpty(s: Option<string>) {
    s.None? || |s.value| == 0
  }
}

=== FILE: stores.dfy ===
/** Everything the pipeline's components share: the four tables of the
    relational database, the blob store and the Service Bus outbox. */
module Stores {

  import opened Wrappers
  import opened Tables
  import opened Exceptions
  import opened Domain
  import opened BlobStorage
  import opened Messaging

  datatype Store = Store(
    cases: seq<SubrogationCase>,
    packages: seq<DemandPackage>,
    documents: seq<PackageDocument>,
    logs: seq<CommunicationLog>,
    blobs: Blobs,
    outbox: seq<Envelope>)

  /** The primary keys hold in every table, and package rows do not carry
      their documents (those live in their own table). */
  predicate Valid(s: Store) {
    && UniqueKeys(s.cases, CaseKey)
    && UniqueKeys(s.packages, PackageKey)
    && UniqueKeys(s.documents, DocumentKey)
    && UniqueKeys(s.logs, LogKey)
    && forall p :: p in s.packages ==> p.documents == []
  }

  /** What a queue-triggered worker leaves behind: the store, and the
      exception it rethrows (which makes Service Bus deliver the message again). */
  datatype WorkerRun = WorkerRun(store: Store, error: Option<Exception>)
}

=== FILE: tables.dfy ===
/** Database tables as sequences of rows in insertion order, and the LINQ
    operators the repositories compose: `Where`, `OrderBy`,
    `OrderByDescending`, `Skip`, `Take`, `FirstOrDefault`, `Count`, and the
    row-level effects of `Add`, `ExecuteUpdate` and `ExecuteDelete`. */
module Tables {

  import opened Wrappers
  import opened Guids

  /** The primary-key constraint: no two rows share a key. */
  predicate UniqueKeys<T>(t: seq<T>, key: T -> Guid) {
    forall i, j :: 0 <= i < j < |t| ==> key(t[i]) != key(t[j])
  }

  predicate HasKey<T>(t: seq<T>, key: T -> Guid, k: Guid) {
    exists i :: 0 <= i < |t| && key(t[i]) == k
  }

  /** `FirstOrDefault(row => key(row) == k)`. */
  function Find<T>(t: seq<T>, key: T -> Guid, k: Guid): (r: Option<T>)
    ensures r.Some? ==> r.value in t && key(r.value) == k
    ensures r.None? <==> !HasKey(t, key, k)
  {
    if |t| == 0 then None
    else if key(t[0]) == k then Some(t[0])
    else
      var r := Find(t[1..], key, k);
      assert HasKey(t[1..], key, k) ==> HasKey(t, key, k) by {
        if HasKey(t[1..], key, k) {
          var i :| 0 <= i < |t[1..]| && key(t[1..][i]) == k;
          assert key(t[i + 1]) == k;
        }
      }
      r
  }

  /** With unique keys, the row found is the only row with that key. */
  lemma FindUnique<T>(t: seq<T>, key: T -> Guid, k: Guid, i: int)
    requires UniqueKeys(t, key)
    requires 0 <= i < |t| && key(t[i]) == k
    ensures Find(t, key, k) == Some(t[i])
  {
    if i > 0 {
      assert key(t[0]) != k;
      assert t[1..][i - 1] == t[i];
      FindUnique(t[1..], key, k, i - 1);
    }
  }

  /** `Add` + `SaveChanges`: the row is appended, or `None` when its key is taken. */
  function Insert<T>(t: seq<T>, key: T -> Guid, row: T): (r: Option<seq<T>>)
    ensures r.None? <==> HasKey(t, key, key(row))
    ensures r.Some? ==> r.value == t + [row]
    ensures r.Some? && UniqueKeys(t, key) ==> UniqueKeys(r.value, key)
    ensures r.Some? ==> Find(r.value, key, key(row)) == Some(row)
  {
    if Find(t, key, key(row)).Some? then None
    else
      FindAppended(t, key, row);
      Some(t + [row])
  }

  /** A row appended under a fresh key is the one `Find` returns for it. */
  lemma {:induction false} FindAppended<T>(t: seq<T>, key: T -> Guid, row: T)
    requires !HasKey(t, key, key(row))
    ensures Find(t + [row], key, key(row)) == Some(row)
  {
    if |t| > 0 {
      assert key(t[0]) != key(row);
      assert (t + [row])[1..] == t[1..] + [row];
      forall i | 0 <= i < |t[1..]|
        ensures key(t[1..][i]) != key(row)
      {
        assert t[1..][i] == t[i + 1];
      }
      FindAppended(t[1..], key, row);
    }
  }

  /** `Where(row => key(row) == k).ExecuteUpdate(f)`: every matching row is
      replaced by its image under `f`, the others are kept in place. */
  function Update<T>(t: seq<T>, key: T -> Guid, k: Guid, f: T -> T): (r: seq<T>)
    ensures |r| == |t|
    ensures forall i :: 0 <= i < |t| && key(t[i]) != k ==> r[i] == t[i]
    ensures forall i :: 0 <= i < |t| && key(t[i]) == k ==> r[i] == f(t[i])
  {
    seq(|t|, i requires 0 <= i < |t| => if key(t[i]) == k then f(t[i]) else t[i])
  }

  /** An update that keeps the key keeps the primary-key constraint. */
  lemma UpdateKeepsUniqueKeys<T>(t: seq<T>, key: T -> Guid, k: Guid, f: T -> T)
    requires UniqueKeys(t, key)
    requires forall i :: 0 <= i < |t| && key(t[i]) == k ==> key(f(t[i])) == k
    ensures UniqueKeys(Update(t, key, k, f), key)
  {
  }

  /** Reading a row back after an update that keeps its key finds the
      updated row. */
  lemma {:induction false} FindAfterUpdate<T>(t: seq<T>, key: T -> Guid, k: Guid, f: T -> T)
    requires HasKey(t, key, k)
    requires forall i :: 0 <= i < |t| && key(t[i]) == k ==> key(f(t[i])) == k
    ensures Find(Update(t, key, k, f), key, k) == Some(f(Find(t, key, k).value))
  {
    var u := Update(t, key, k, f);
    if key(t[0]) != k {
      assert u[1..] == Update(t[1..], key, k, f);
      var i :| 0 <= i < |t| && key(t[i]) == k;
      assert t[1..][i - 1] == t[i];
      FindAfterUpdate(t[1..], key, k, f);
    }
  }

  /** An update that keeps keys keeps every key present. */
  lemma UpdateKeepsHasKey<T>(t: seq<T>, key: T -> Guid, k: Guid, f: T -> T, other: Guid)
    requires forall i :: 0 <= i < |t| && key(t[i]) == k ==> key(f(t[i])) == k
    requires HasKey(t, key, other)
    ensures HasKey(Update(t, key, k, f), key, other)
  {
    var i :| 0 <= i < |t| && key(t[i]) == other;
    assert key(Update(t, key, k, f)[i]) == other;
  }

  /** A table rewritten row by row without touching keys keeps the
      primary-key constraint and every key. */
  lemma SameKeys<T>(t: seq<T>, r: seq<T>, key: T -> Guid)
    requires |r| == |t|
    requires forall i :: 0 <= i < |t| ==> key(r[i]) == key(t[i])
    ensures UniqueKeys(t, key) ==> UniqueKeys(r, key)
    ensures forall k :: HasKey(t, key, k) ==> HasKey(r, key, k)
  {
    forall k | HasKey(t, key, k)
      ensures HasKey(r, key, k)
    {
      var i :| 0 <= i < |t| && key(t[i]) == k;
      assert key(r[i]) == k;
    }
  }

  /** Appending a row keeps every key present. */
  lemma AppendKeepsKeys<T>(t: seq<T>, row: T, key: T -> Guid)
    ensures forall k :: HasKey(t, key, k) ==> HasKey(t + [row], key, k)
    ensures HasKey(t + [row], key, key(row))
  {
    forall k | HasKey(t, key, k)
      ensures HasKey(t + [row], key, k)
    {
      var i :| 0 <= i < |t| && key(t[i]) == k;
      assert key((t + [row])[i]) == k;
    }
    assert key((t + [row])[|t|]) == key(row);
  }

  /** What a tracking context holds after mutating a loaded entity: the
      in-memory instance, and the table as the database stores it. */
  datatype Tracked<T> = Tracked(instance: T, stored: seq<T>)

  /** `Where(p)`: the rows satisfying `p`, in table order. */
  function Filter<T(!new)>(t: seq<T>, p: T -> bool): (r: seq<T>)
    ensures forall x :: x in r <==> x in t && p(x)
    ensures |r| <= |t|
    ensures multiset(r) <= multiset(t)
  {
    if |t| == 0 then []
    else
      var rest := Filter(t[1..], p);
      assert t == [t[0]] + t[1..];
      if p(t[0]) then [t[0]] + rest else rest
  }

  /** Filtering with a predicate every row satisfies keeps the table as it is. */
  lemma {:induction false} FilterAll<T(!new)>(t: seq<T>, p: T -> bool)
    requires forall x :: x in t ==> p(x)
    ensures Filter(t, p) == t
  {
    if |t| > 0 {
      FilterAll(t[1..], p);
      assert t == [t[0]] + t[1..];
    }
  }

  lemma {:induction false} FilterKeepsUniqueKeys<T(!new)>(t: seq<T>, p: T -> bool, key: T -> Guid)
    requires UniqueKeys(t, key)
    ensures UniqueKeys(Filter(t, p), key)
  {
    if |t| > 0 {
      FilterKeepsUniqueKeys(t[1..], p, key);
      var rest := Filter(t[1..], p);
      if p(t[0]) {
        forall j | 0 <= j < |rest|
          ensures key(t[0]) != key(rest[j])
        {
          assert rest[j] in t[1..];
        }
        var r := [t[0]] + rest;
        forall i, j | 0 <= i < j < |r|
          ensures key(r[i]) != key(r[j])
        {
          if i > 0 {
            assert r[i] == rest[i - 1] && r[j] == rest[j - 1];
          }
        }
      }
    }
  }

  /** Ascending order by an integer sort key. */
  predicate SortedBy<T>(s: seq<T>, key: T -> int) {
    forall i, j :: 0 <= i < j < |s| ==> key(s[i]) <= key(s[j])
  }

  /** Non-increasing order by an integer sort key. */
  predicate SortedDescendingBy<T>(s: seq<T>, key: T -> int) {
    forall i, j :: 0 <= i < j < |s| ==> key(s[i]) >= key(s[j])
  }

  /** Inserts `x` after every element whose key is not greater than its own. */
  function InsertBy<T(!new)>(x: T, s: seq<T>, key: T -> int): (r: seq<T>)
    requires SortedBy(s, key)
    ensures SortedBy(r, key)
    ensures multiset(r) == multiset(s) + multiset{x}
  {
    if |s| == 0 then [x]
    else if key(x) < key(s[0]) then [x] + s
    else
      var rest := InsertBy(x, s[1..], key);
      assert s == [s[0]] + s[1..];
      InsertAfterHead(x, s, key, rest);
      [s[0]] + rest
  }

  lemma InsertAfterHead<T>(x: T, s: seq<T>, key: T -> int, rest: seq<T>)
    requires |s| > 0 && SortedBy(s, key) && key(s[0]) <= key(x)
    requires SortedBy(rest, key) && multiset(rest) == multiset(s[1..]) + multiset{x}
    ensures SortedBy([s[0]] + rest, key)
    ensures multiset([s[0]] + rest) == multiset(s) + multiset{x}
  {
    forall y | y in rest
      ensures key(s[0]) <= key(y)
    {
      assert y in multiset(rest);
      if y != x {
        assert y in multiset(s[1..]);
        var k :| 0 <= k < |s[1..]| && s[1..][k] == y;
        assert s[k + 1] == y;
      }
    }
    var r := [s[0]] + rest;
    forall i, j | 0 <= i < j < |r|
      ensures key(r[i]) <= key(r[j])
    {
      assert r[j] == rest[j - 1];
      assert r[j] in rest;
      if i > 0 {
        assert r[i] == rest[i - 1];
      }
    }
    assert s == [s[0]] + s[1..];
  }

  /** `OrderBy(key)`, a stable insertion sort. */
  function SortBy<T(!new)>(s: seq<T>, key: T -> int): (r: seq<T>)
    ensures SortedBy(r, key)
    ensures multiset(r) == multiset(s)
  {
    if |s| == 0 then []
    else
      var init := s[..|s| - 1];
      assert s == init + [s[|s| - 1]];
      InsertBy(s[|s| - 1], SortBy(init, key), key)
  }

  /** Sequences with the same multiset have the same length and elements. */
  lemma SameMultiset<T>(a: seq<T>, b: seq<T>)
    requires multiset(a) == multiset(b)
    ensures |a| == |b|
    ensures forall y :: y in a <==> y in b
  {
    assert |multiset(a)| == |a| && |multiset(b)| == |b|;
    forall y
      ensures y in a <==> y in b
    {
      assert y in a <==> y in multiset(a);
      assert y in b <==> y in multiset(b);
    }
  }

  /** `OrderByDescending(key)`. */
  function SortByDescending<T(!new)>(s: seq<T>, key: T -> int): (r: seq<T>)
    ensures SortedDescendingBy(r, key)
    ensures multiset(r) == multiset(s)
  {
    var r := SortBy(s, x => -key(x));
    assert forall i, j :: 0 <= i < j < |r| ==> -key(r[i]) <= -key(r[j]);
    r
  }

  /** `Skip(n)`: a negative count skips nothing. */
  function Skip<T>(s: seq<T>, n: int): (r: seq<T>)
    ensures n <= 0 ==> r == s
    ensures 0 <= n <= |s| ==> r == s[n..]
    ensures n >= |s| ==> r == []
  {
    if n <= 0 then s else if n >= |s| then [] else s[n..]
  }

  /** `Take(n)`: a non-positive count takes nothing. */
  function Take<T>(s: seq<T>, n: int): (r: seq<T>)
    ensures n <= 0 ==> r == []
    ensures 0 <= n <= |s| ==> r == s[..n]
    ensures n >= |s| ==> r == s
  {
    if n <= 0 then [] else if n >= |s| then s else s[..n]
  }

  /** `Skip(skip).Take(take)` is a slice of the sequence. */
  lemma PageIsSlice<T>(s: seq<T>, skip: int, take: int)
    ensures
      var lo := if skip <= 0 then 0 else if skip >= |s| then |s| else skip;
      var hi := if take <= 0 then lo else if take >= |s| - lo then |s| else lo + take;
      0 <= lo <= hi <= |s| && Take(Skip(s, skip), take) == s[lo..hi]
  {
  }

  /** The page a skip and a take cut, case by case: in range it is the slice
      from `skip`, clipped at the end; a negative skip starts at the front; a
      skip past the end or a non-positive take cuts nothing. */
  lemma PageCases<T>(s: seq<T>, skip: int, take: int)
    ensures 0 <= skip <= |s| && 0 <= take ==> Take(Skip(s, skip), take) == s[skip .. if skip + take <= |s| then skip + take else |s|]
    ensures skip < 0 ==> Take(Skip(s, skip), take) == s[.. if take <= 0 then 0 else if take <= |s| then take else |s|]
    ensures |s| <= skip || take <= 0 ==> Take(Skip(s, skip), take) == []
  {
    PageIsSlice(s, skip, take);
  }

  /** A page of a sequence sorted newest first: no longer than the take,
      drawn from the sequence, still sorted, and full when it fits. */
  lemma PageOfSortedDescending<T>(s: seq<T>, key: T -> int, skip: int, take: int)
    requires SortedDescendingBy(s, key)
    ensures |Take(Skip(s, skip), take)| <= if take < 0 then 0 else take
    ensures forall x :: x in Take(Skip(s, skip), take) ==> x in s
    ensures SortedDescendingBy(Take(Skip(s, skip), take), key)
    ensures 0 <= skip && 0 <= take && skip + take <= |s| ==> |Take(Skip(s, skip), take)| == take
  {
    PageIsSlice(s, skip, take);
    var lo := if skip <= 0 then 0 else if skip >= |s| then |s| else skip;
    var hi := if take <= 0 then lo else if take >= |s| - lo then |s| else lo + take;
    SortedSlice(s, key, lo, hi);
  }

  /** Consecutive pages concatenate to the page that spans them. */
  lemma PagesConcatenate<T>(s: seq<T>, n: int, m: int)
    requires 0 <= n && 0 <= m
    ensures Take(Skip(s, 0), n) + Take(Skip(s, n), m) == Take(Skip(s, 0), n + m)
  {
    if n >= |s| {
    } else if n + m >= |s| {
      assert s[..n] + s[n..] == s;
    } else {
      assert s[..n] + s[n..][..m] == s[..n + m];
    }
  }

  /** Taking a prefix of a sorted sequence keeps the smallest keys: whatever
      is left out is no smaller than anything taken, and only a full prefix
      leaves something out. */
  lemma TakeOfSorted<T>(s: seq<T>, key: T -> int, n: int, x: T)
    requires SortedBy(s, key)
    requires x in s && x !in Take(s, n)
    ensures |Take(s, n)| >= n
    ensures forall y :: y in Take(s, n) ==> key(y) <= key(x)
  {
    var j :| 0 <= j < |s| && s[j] == x;
    assert n <= j;
  }

  /** A sorted sequence stays sorted when sliced. */
  lemma SortedSlice<T>(s: seq<T>, key: T -> int, lo: int, hi: int)
    requires 0 <= lo <= hi <= |s|
    ensures SortedBy(s, key) ==> SortedBy(s[lo..hi], key)
    ensures SortedDescendingBy(s, key) ==> SortedDescendingBy(s[lo..hi], key)
  {
  }

  /** The first `n` of a sorted sequence: at most `n`, drawn from it, still
      sorted, and no larger than anything left behind. */
  lemma TakeSorted<T>(s: seq<T>, key: T -> int, n: int)
    requires SortedBy(s, key)
    ensures |Take(s, n)| <= if n < 0 then 0 else n
    ensures forall y :: y in Take(s, n) ==> y in s
    ensures SortedBy(Take(s, n), key)
    ensures forall x :: x in s && x !in Take(s, n) ==>
      |Take(s, n)| >= n && forall y :: y in Take(s, n) ==> key(y) <= key(x)
  {
    var taken := Take(s, n);
    SortedSlice(s, key, 0, |taken|);
    assert taken == s[..|taken|];
    forall x | x in s && x !in taken
      ensures |taken| >= n && forall y :: y in taken ==> key(y) <= key(x)
    {
      TakeOfSorted(s, key, n, x);
    }
  }
}

=== FILE: tenant_service.dfy ===
/** `CurrentTenantService`: the tenant and user of the current request, read
    from the claims of the signed-in principal. */
module TenantService {

  import opened Wrappers
  import opened Primitives
  import opened Guids
  import opened Exceptions

  datatype Claim = Claim(claimType: string, value: string)

  datatype Identity = Identity(isAuthenticated: bool, claims: seq<Claim>)

  /** A `ClaimsPrincipal`; its `Identity` is the first of its identities. */
  datatype Principal = Principal(identities: seq<Identity>)

  const TenantIdExtensionClaim: string := "extension_TenantId"
  const TenantIdClaim: string := "TenantId"
  const NameIdentifierClaim: string := "http://schemas.xmlsoap.org/ws/2005/05/identity/claims/nameidentifier"
  const SubjectClaim: string := "sub"

  predicate Matches(c: Claim, claimType: string) {
    EqualsIgnoreCase(c.claimType, claimType)
  }

  /** The principal's claims, identity after identity. */
  function AllClaims(identities: seq<Identity>): seq<Claim> {
    if |identities| == 0 then [] else identities[0].claims + AllClaims(identities[1..])
  }

  /** `ClaimsIdentity.FindFirst`: the first claim whose type equals the
      requested one, ignoring case. */
  function FindFirstIn(claims: seq<Claim>, claimType: string): (r: Option<Claim>)
    ensures r.None? <==> forall c :: c in claims ==> !Matches(c, claimType)
    ensures r.Some? ==>
      exists i :: 0 <= i < |claims| && claims[i] == r.value && Matches(r.value, claimType) &&
        forall j :: 0 <= j < i ==> !Matches(claims[j], claimType)
  {
    if |claims| == 0 then None
    else if Matches(claims[0], claimType) then Some(claims[0])
    else
      var r := FindFirstIn(claims[1..], claimType);
      if r.Some? then
        var i :| 0 <= i < |claims[1..]| && claims[1..][i] == r.value && Matches(r.value, claimType) &&
          forall j :: 0 <= j < i ==> !Matches(claims[1..][j], claimType);
        assert claims[i + 1] == r.value;
        assert forall j :: 0 <= j < i + 1 ==> !Matches(claims[j], claimType) by {
          forall j | 0 <= j < i + 1 ensures !Matches(claims[j], claimType) {
            if j > 0 { assert claims[j] == claims[1..][j - 1]; }
          }
        }
        r
      else r
  }

  /** `ClaimsPrincipal.FindFirst`: identity by identity, the first match;
      the same as the first match among all claims in order. */
  function FindFirst(p: Principal, claimType: string): (r: Option<Claim>)
    ensures r == FindFirstIn(AllClaims(p.identities), claimType)
  {
    FindFirstInIdentities(p.identities, claimType)
  }

  function FindFirstInIdentities(identities: seq<Identity>, claimType: string): (r: Option<Claim>)
    ensures r == FindFirstIn(AllClaims(identities), claimType)
  {
    if |identities| == 0 then None
    else
      match FindFirstIn(identities[0].claims, claimType)
      case Some(c) =>
        FindFirstInPrefix(identities[0].claims, AllClaims(identities[1..]), claimType);
        Some(c)
      case None =>
        FindFirstInPrefix(identities[0].claims, AllClaims(identities[1..]), claimType);
        FindFirstInIdentities(identities[1..], claimType)
  }

  /** Searching a concatenation searches the first part, then the second. */
  lemma {:induction false} FindFirstInPrefix(a: seq<Claim>, b: seq<Claim>, claimType: string)
    ensures FindFirstIn(a + b, claimType) ==
      if FindFirstIn(a, claimType).Some? then FindFirstIn(a, claimType) else FindFirstIn(b, claimType)
  {
    if |a| > 0 {
      assert (a + b)[1..] == a[1..] + b;
      FindFirstInPrefix(a[1..], b, claimType);
    } else {
      assert a + b == b;
    }
  }

  /** `TenantId`: `None` without a user or for an anonymous one; otherwise the
      `extension_TenantId` claim, or failing that the `TenantId` claim, parsed
      as a GUID (`None` when it does not parse). A user with no identity
      dereferences a null `Identity`. */
  function TenantId(user: Option<Principal>): (r: Result<Option<Guid>, Exception>)
    ensures user.None? ==> r == Success(None)
    ensures user.Some? && |user.value.identities| == 0 ==> r == Failure(NullReference)
    ensures user.Some? && |user.value.identities| > 0 && !user.value.identities[0].isAuthenticated ==> r == Success(None)
    ensures r.Failure? ==> r.error == NullReference
    ensures user.Some? && |user.value.identities| > 0 && user.value.identities[0].isAuthenticated ==>
      var p := user.value;
      && (FindFirst(p, TenantIdExtensionClaim).Some? ==> r == Success(TryParse(FindFirst(p, TenantIdExtensionClaim).value.value)))
      && (FindFirst(p, TenantIdExtensionClaim).None? && FindFirst(p, TenantIdClaim).Some? ==>
            r == Success(TryParse(FindFirst(p, TenantIdClaim).value.value)))
      && (FindFirst(p, TenantIdExtensionClaim).None? && FindFirst(p, TenantIdClaim).None? ==> r == Success(None))
  {
    match user
    case None => Success(None)
    case Some(p) =>
      if |p.identities| == 0 then Failure(NullReference)
      else if !p.identities[0].isAuthenticated then Success(None)
      else
        match FirstOfTwo(p, TenantIdExtensionClaim, TenantIdClaim)
        case None => Success(None)
        case Some(c) => Success(TryParse(c.value))
  }

  /** Some claim of the principal has one of the two types. */
  predicate HasClaimOf(p: Principal, first: string, second: string) {
    exists c :: c in AllClaims(p.identities) && (Matches(c, first) || Matches(c, second))
  }

  /** `p.FindFirst(first) ?? p.FindFirst(second)`: a claim of the second type
      is looked for only when none of the first exists. */
  function FirstOfTwo(p: Principal, first: string, second: string): (r: Option<Claim>)
    ensures FindFirst(p, first).Some? ==> r == FindFirst(p, first)
    ensures FindFirst(p, first).None? ==> r == FindFirst(p, second)
    ensures r.Some? <==> HasClaimOf(p, first, second)
  {
    if FindFirst(p, first).Some? then FindFirst(p, first) else FindFirst(p, second)
  }

  /** The extension claim wins: when present, the `TenantId` claim is not
      consulted even if the extension's value is not a GUID. */
  lemma ExtensionClaimTakesPrecedence(p: Principal, c: Claim)
    requires |p.identities| > 0 && p.identities[0].isAuthenticated
    requires FindFirst(p, TenantIdExtensionClaim) == Some(c)
    ensures TenantId(Some(p)) == Success(TryParse(c.value))
  {
  }

  /** A signed-in user whose only claim is `TenantId` holding a rendered GUID
      belongs to that tenant. */
  lemma TenantIdRoundTrip(tenantId: Guid)
    ensures TenantId(Some(Principal([Identity(true, [Claim(TenantIdClaim, ToString(tenantId))])]))) == Success(Some(tenantId))
  {
    var c := Claim(TenantIdClaim, ToString(tenantId));
    SingleClaimLookup(c);
    ParseToString(tenantId);
  }

  lemma SingleClaimLookup(c: Claim)
    requires c.claimType == TenantIdClaim
    ensures FindFirst(Principal([Identity(true, [c])]), TenantIdExtensionClaim) == None
    ensures FindFirst(Principal([Identity(true, [c])]), TenantIdClaim) == Some(c)
  {
    var p := Principal([Identity(true, [c])]);
    assert AllClaims(p.identities) == [c] by {
      assert AllClaims(p.identities[1..]) == [];
    }
    assert !Matches(c, TenantIdExtensionClaim) by {
      assert |ToLowerAsciiString(TenantIdClaim)| != |ToLowerAsciiString(TenantIdExtensionClaim)|;
    }
  }

  /** `UserId`: the name-identifier claim, else the `sub` claim; `None` without a user. */
  function UserId(user: Option<Principal>): (r: Option<string>)
    ensures user.None? ==> r.None?
    ensures user.Some? && FindFirst(user.value, NameIdentifierClaim).Some? ==> r == Some(FindFirst(user.value, NameIdentifierClaim).value.value)
    ensures user.Some? && FindFirst(user.value, NameIdentifierClaim).None? && FindFirst(user.value, SubjectClaim).Some? ==>
      r == Some(FindFirst(user.value, SubjectClaim).value.value)
    ensures r.Some? <==> user.Some? && HasClaimOf(user.value, NameIdentifierClaim, SubjectClaim)
  {
    match user
    case None => None
    case Some(p) =>
      match FirstOfTwo(p, NameIdentifierClaim, SubjectClaim)
      case Some(c) => Some(c.value)
      case None => None
  }
}

=== FILE: wrappers.dfy ===
/** Option and Result, the two failure-carrying shapes the model uses for C#'s
    nullable references and thrown exceptions. */
module Wrappers {

  /** A nullable value: `None` stands for C#'s `null`. */
  datatype Option<+T> = None | Some(value: T) {

    /** The value, or `default` when absent (C#'s `??`). */
    function GetOr(default: T): T {
      match this
      case Some(v) => v
      case None => default
    }
  }

  /** The outcome of an operation that may throw: `Failure` carries the exception. */
  datatype Result<+R, +E> = Success(value: R) | Failure(error: E) {

    predicate IsFailure() {
      Failure?
    }

    function PropagateFailure<U>(): Result<U, E>
      requires Failure?
    {
      Failure(error)
    }

    function Extract(): R
      requires Success?
    {
      value
    }
  }
}
